=== FILE: README.md ===
# Weekly breakout scanner: a Dafny model

This project models the decision logic of a scanner for Indian equities. It
flags "weekly breakouts": a week that closes above the highest high of the
previous twenty weeks on above-average volume. Each symbol is alerted at most
once per `(year, week)` key, where the year is the calendar year and the week
is the ISO week number. The project proves properties of that logic.

The modelled parts are:

- **Analyser** (`BreakoutAnalyzer`). It groups daily bars into W-FRI weeks. Each week gets the first open, highest high, lowest low, last close and total volume. It then judges the last week against the `lookbackWeeks` weeks before it.
- **Scanner test** (`Scanner.CheckWeeklyBreakout`). This is the scanner script's own variant of the test: a 20-row rolling window, a volume average that includes the current row, and two strict comparisons. The two variants are modelled separately and compared by lemmas.
- **Alert ledger** (`AlertLedger`). The `sent_alerts.csv` file is a value of type `Option<seq<AlertRecord>>`, where `None` means the file does not exist. It supports a load, an append, a membership test and the weekly prune.
- **Scan loop and `main`** (`Scanner`). The loop is a left fold over the symbols, with one download per iteration: a symbol listed twice is downloaded twice, and the two answers may differ. Each symbol is alerted and recorded when it breaks out and is not yet in the ledger for the current week. `main` selects the symbols, prunes the ledger, then scans.
- **Symbol hygiene** (`DataFetcher`, `Config`, `Text`):
  - the `.NS` exchange suffix;
  - the column checks applied to a downloaded price frame;
  - the clean-up of the Nifty 200 constituent list, which drops nulls, strips, upper-cases, deduplicates in order and falls back to a fixed basket.

Some values come in as inputs rather than being computed:

- downloads, one answer per loop iteration, the constituent table and the symbol CSV;
- the current `(year, week)`;
- each bar's calendar week, as an integer key.

Prices and volumes are `real`. Python's `str.strip` is modelled over the full
`str.isspace` set; `upper`, `lower` and `capitalize` act on ASCII letters.

Supporting modules: `Wrappers` (`Option`, `Result`), `Seqs` (mask filtering,
`unique()`, `xs[:n]`, first match), `Stats` (max, min, sum, mean), `Bars` (the
OHLCV row) and `Csv` (a CSV cell as pandas reads it).

Three behaviours of the code shape the model:

- A failed Telegram send is still recorded, so that symbol is not retried this week (scanner.py:180-181).
- `already_alerted` compares symbols exactly, so matching is case-sensitive (scanner.py:84).
- `_to_weekly` returns an empty frame rather than raising (breakout_analyzer.py:68). An empty series yields insufficient data.

## Model

| member | source | states |
|---|---|---|
| BreakoutAnalyzer.AnalyzerRule | breakout_analyzer.py:10-13 | A given rule is used as is; without one, the rule is lookback 20 and minimum ratio 1.2 (also lines 54-55). |
| BreakoutAnalyzer.Aggregate | breakout_analyzer.py:59-67 | One bucket's bar has the bucket's week, its first open and last close, a high that bounds every high and is one of them, a low that bounds every low and is one of them, and the summed volume. |
| BreakoutAnalyzer.ToWeekly | breakout_analyzer.py:58-68 | Weekly bars come out strictly ascending by week, with exactly the weeks that had input bars and never more bars than were given; empty weeks are absent. |
| BreakoutAnalyzer.ToWeeklyAggregatesBuckets | breakout_analyzer.py:59-68 | Every weekly bar is the aggregate of its own week's non-empty bucket: first open, highest high, lowest low, last close, summed volume. |
| BreakoutAnalyzer.ToWeeklyKeepsWeeklySeries | breakout_analyzer.py:58-68 | A series that already has one bar per week is returned unchanged. |
| BreakoutAnalyzer.ToWeeklyIdempotent | breakout_analyzer.py:58-68 | Grouping an already grouped series changes nothing. |
| BreakoutAnalyzer.StrictlyAscendingCountsWeeks | breakout_analyzer.py:71-73 | A weekly series has exactly as many bars as distinct weeks, so `len(weekly)` counts weeks. |
| BreakoutAnalyzer.PriorWindow | breakout_analyzer.py:80 | `iloc[-(L+1):-1]` holds exactly L bars. |
| BreakoutAnalyzer.PriorWindowSplits | breakout_analyzer.py:80 | The series is its older history, then the window, then the last bar: the window is the L bars just before the last, which it excludes. |
| BreakoutAnalyzer.WindowMaxIsPriorHigh | breakout_analyzer.py:80-82 | The maximum high of the prior window bounds each of bars n-1-L .. n-2 and equals one of them; the last bar is excluded. |
| BreakoutAnalyzer.EvaluateWeekly | breakout_analyzer.py:72-97 | Insufficient data iff fewer than L+2 weekly bars, and then no breakout and no figures. Otherwise: close and week of the last bar, resistance = prior-window high, ratio × mean = last volume (0 when the mean is 0), breakout iff close > resistance and ratio ≥ minimum, reason Breakout iff breakout. |
| BreakoutAnalyzer.ToWeeklyLastClose | breakout_analyzer.py:64 | The last weekly bar closes at the last daily close. |
| BreakoutAnalyzer.Evaluate | breakout_analyzer.py:70-97 | On daily bars: insufficient data iff fewer than L+2 distinct weeks, and then no breakout, no figures, and the reason carries the week count and L+2. Otherwise there are figures, and they come from the grouped series: the close is the last daily close, the week is the latest week present, the resistance is the prior window's highest high and the ratio × the window's mean volume is the last weekly volume (0 when that mean is 0). A breakout iff the close is above the resistance and the ratio reaches the minimum; with enough data, reason Breakout iff breakout. |
| BreakoutAnalyzer.CloseAtResistanceIsNoBreakout | breakout_analyzer.py:86-88 | A close equal to the resistance is never a breakout, whatever the volume. |
| BreakoutAnalyzer.EvaluateIgnoresOlderWeeks | breakout_analyzer.py:79-88 | For a series of at least L+2 weekly bars, putting older history in front does not change the evaluation. |
| BreakoutAnalyzer.ScenarioConfirmedBreakout | breakout_analyzer.py:79-97 | 22 weeks, prior highs ≤ 100, close 105, prior mean volume 1,000,000, last volume 1,300,000: breakout with ratio 1.3. |
| BreakoutAnalyzer.ScenarioVolumeTooLow | breakout_analyzer.py:79-97 | The same with last volume 1,100,000: ratio 1.1, no breakout, reason NoBreakout. |
| AlertLedger.LoadSentAlerts | scanner.py:68-71 | A missing file loads as no rows; an existing one as its rows. |
| AlertLedger.SaveSentAlert | scanner.py:73-80 | The file exists afterwards and has exactly one more row, the new triple, at the end; earlier rows are unchanged and in order. |
| AlertLedger.AlreadyAlerted | scanner.py:82-84 | True iff some row equals the triple on all three fields, the symbol compared exactly. |
| AlertLedger.AutoResetWeekly | scanner.py:86-92 | A missing file stays missing; otherwise a row is kept iff it has the given year and week, and no rows are added. |
| AlertLedger.AutoResetWeeklyKeepsOrder | scanner.py:89-92 | The prune distributes over concatenation, so kept rows stay in file order. |
| AlertLedger.AutoResetWeeklyIdempotent | scanner.py:86-92 | Pruning twice to the same week is pruning once. |
| AlertLedger.AlreadyAlertedAfterSave | scanner.py:73-84 | After saving a triple, exactly that triple becomes alerted in addition to what was alerted before. |
| AlertLedger.AlreadyAlertedAfterReset | scanner.py:82-92 | After the prune, a triple is alerted iff it is in the current week and was alerted before. |
| Scanner.VolumeWindow | scanner.py:115 | The window of `rolling(20).mean()` holds exactly 20 rows. |
| Scanner.VolumeWindowSplits | scanner.py:115 | The window is the tail of the rows, so it ends with the current row. |
| Scanner.CheckWeeklyBreakout | scanner.py:110-119 | Not enough rows iff fewer than 21. Otherwise close and volume of the last row, previous high = highest high of the 20 rows before it, and breakout iff close > previous high and 20 × volume > 1.2 × the volume of the last 20 rows, the current one included. |
| Scanner.ScannerNeedsOneWeekLess | scanner.py:111-112 | 21 weekly rows are checked by the scanner but are insufficient data for the analyser's default rule. |
| Scanner.PriceTestsAgree | scanner.py:114-118 | With at least 22 weeks, the scanner's previous high equals the analyser's default resistance, and the closes agree. |
| Scanner.VolumeTestsDiffer | scanner.py:115-118 | 21 flat weeks at volume 1, then a week closing at 105 on volume 1.2: the analyser reports a breakout, the scanner does not. |
| Scanner.SelectSymbols | scanner.py:139-149 | A non-empty `--symbol` gives the one stripped, upper-cased symbol. Otherwise: a CSV error iff the column is unreadable or holds a non-string cell; else a prefix of the normalised non-null cells, all of them when `--max-symbols` is absent or 0, at most n for n > 0, all but the last -n for n < 0. |
| Scanner.SelectedFromCsv | scanner.py:143-144 | Without options, the selected symbols are exactly the stripped, upper-cased texts of the non-null CSV cells. |
| Scanner.ScanStep | scanner.py:165-181 | One iteration, given what its download returned. Data that breaks out, for a symbol not yet alerted this week, appends that symbol to the results and exactly one row, its own, to the ledger, whatever the send returned; otherwise results and ledger stay as they were. After a breakout the symbol is alerted this week, and nothing alerted before stops being alerted. |
| Scanner.ScanLoop | scanner.py:164-181 | The i-th iteration sees the i-th download. Results only grow: the starting results are a prefix of the final ones. |
| Scanner.CandidatesMembership | scanner.py:165-170 | A symbol is a candidate iff the download at one of its positions broke out and the starting ledger has no row for it this week. |
| Scanner.ScanLoopAlertsFreshBreakouts | scanner.py:164-181 | The loop alerts exactly the candidates, each once, in order of first such position; a repeat's later download cannot alert it again. It appends one ledger row per alert in the same order, and the file exists afterwards iff it did before or something was alerted. |
| Scanner.ScanLoopSoundAndComplete | scanner.py:169-181 | A symbol is alerted iff the download at one of its positions broke out and it was not alerted this week at loop start; no symbol is alerted twice; every alerted symbol is in the ledger afterwards. |
| Scanner.RepeatedSymbolAlertedOnce | scanner.py:164-181 | A symbol listed twice whose second download breaks out is alerted exactly once, whatever the first download returned. |
| Scanner.AlertRowsAreNew | scanner.py:170-181 | The rows the loop appends are distinct from each other and from every row already in the file. |
| Scanner.ScanLoopKeepsLedgerDuplicateFree | scanner.py:170-181 | A ledger without repeated rows keeps having none after the loop. |
| Scanner.Run | scanner.py:139-181 | `main` returns early, without pruning the ledger or scanning, exactly when symbol selection hits a CSV error; a completed run leaves a ledger file iff one existed or something was alerted. |
| Scanner.RunKeepsOnlyCurrentWeek | scanner.py:151-181 | After a completed run the ledger holds only rows of the current year and week. |
| Scanner.RunAlertsFreshBreakouts | scanner.py:155-171 | A completed run alerts exactly the candidates, each once, judged against the ledger before the prune, since the prune only forgets other weeks. |
| Scanner.ResetKeepsAlerts | scanner.py:155-170 | Judged against the pruned ledger or the original one, the same symbols are alerted. |
| DataFetcher.EnsureNsSuffix | data_fetcher.py:22-26 | The result ends in `.NS` and is stripped and upper-case; it is the normalised input when that already ends in `.NS`, and otherwise the normalised input followed by `.NS`. |
| DataFetcher.EnsureNsSuffixIdempotent | data_fetcher.py:22-26 | Applying the suffix twice is applying it once. |
| DataFetcher.NormalizeColumns | data_fetcher.py:46-51 | Each column keeps its values and is renamed to the capitalised first level of its label. |
| DataFetcher.FirstMissing | data_fetcher.py:53-59 | None iff every required name is present; otherwise the first required name, in order, that is absent. |
| DataFetcher.IsEmpty | data_fetcher.py:43-44 | `DataFrame.empty`: true iff the frame has no rows or no columns. |
| DataFetcher.SelectColumns | data_fetcher.py:61 | `frame[required]` keeps exactly the columns whose name is required. |
| DataFetcher.SelectedNamesAreRequired | data_fetcher.py:61 | On distinct names that include every required one, the selected columns carry the required names in the required order. |
| DataFetcher.FetchOhlcv | data_fetcher.py:28-61 | A failed download and an empty frame raise their errors; a non-empty download fails only with a missing-column error, which names the first of Open, High, Low, Close, Volume missing after renaming; success iff all five are present; the returned columns are exactly the renamed columns carrying one of the five names, and the row count is kept. |
| DataFetcher.FetchOhlcvReturnsRequiredColumns | data_fetcher.py:43-61 | A non-empty download whose renamed columns are distinct and include all five succeeds and returns exactly Open, High, Low, Close, Volume in that order, each holding the values of the downloaded column of that capitalised name. |
| DataFetcher.SelectedColumnsAreRequired | data_fetcher.py:61 | `frame[required]` on distinct names picks one column per required name, traced back to the download. |
| DataFetcher.FetchOhlcvAcceptsAnyHeaderCase | data_fetcher.py:46-56 | A frame headed open/high/low/close/volume in lower, upper or title case is accepted. |
| Config.SymbolCells | config.py:57-65 | There are cells iff the table was read and has a symbol column, and then they are the cells of the first such column. |
| Config.FindSymbolColumn | config.py:59-65 | None iff no header strips and lower-cases to "symbol"; otherwise the first such column. |
| Config.CellSymbols | config.py:67-72 | Every symbol produced is stripped and upper-case; no cells give no symbols. |
| Config.CellSymbolsSnoc | config.py:67-72 | One cell more at the end adds its symbol at the end when not null, and nothing otherwise, so the symbols follow column order. |
| Config.CellSymbolsMembership | config.py:67-72 | The symbols produced are exactly the stripped, upper-cased texts of the non-null cells. |
| Config.CellSymbolsEmpty | config.py:67-72 | No symbol comes out iff every cell is null. |
| Config.ColumnSymbols | config.py:67-75 | The deduplicated list has no repeats, holds only normalised symbols and is empty only for an all-null column. |
| Config.LoadNifty200Symbols | config.py:54-80 | Never empty, no repeats, all normalised. It is the fallback basket when the table is unreadable, has no symbol column or has only nulls; otherwise it is the deduplicated column. |
| Config.ColumnSymbolsAreValuesInOrder | config.py:67-75 | The deduplicated column (the loaded list whenever the column has a value) holds each normalised cell text once, in order of first appearance in the column. |
| Config.FallbackIsWellFormed | config.py:33-44 | The fallback basket is non-empty, has no repeats and is normalised. |
| Text.Strip | config.py:60 | The result has no whitespace at either end and is the input with a whitespace prefix and suffix removed. |
| Text.Upper | data_fetcher.py:23 | `upper()` keeps the length, leaves no lower-case letter and changes each character only in case. |
| Text.Lower | config.py:60 | `lower()` keeps the length, leaves no upper-case letter and changes each character only in case. |
| Text.Normalize | data_fetcher.py:23 | `strip().upper()` yields a stripped upper-case string no longer than the input, equal to the stripped input up to case, and leaves such a string unchanged. |
| Text.NormalizeIdempotent | data_fetcher.py:23 | Normalising twice is normalising once. |
| Text.Capitalize | data_fetcher.py:51 | Same length and the same letters up to case; first character not lower-case, the rest not upper-case. |
| Text.CapitalizeKeepsCapitalized | data_fetcher.py:51 | A capitalised string is left unchanged. |
| Text.CapitalizeIgnoresCase | data_fetcher.py:51 | `capitalize` gives the same result on an upper-cased or lower-cased input as on the input. |
| Seqs.Dedup | config.py:73 | No repeats, same elements as the input, never longer. |
| Seqs.DedupKeepsFirstOccurrenceOrder | config.py:73-74 | `unique()` lists elements in order of their first occurrence. |
| Seqs.SliceTo | scanner.py:148-149 | `xs[:n]` is a prefix of `xs`: min(n, len) long for n ≥ 0; for negative n, the last -n elements removed. |
| Seqs.FindFirst | config.py:59-62 | None iff no element matches; otherwise the position of the first match. |
| Stats.Max | breakout_analyzer.py:82 | The maximum bounds every value and is one of them. |
| Stats.Min | breakout_analyzer.py:63 | The minimum bounds every value from below and is one of them. |
| Stats.SumConcat | breakout_analyzer.py:65 | Summing a concatenation sums the parts. |
| Stats.SumConstant | breakout_analyzer.py:65 | n copies of c sum to n × c. |
| Stats.Mean | breakout_analyzer.py:83 | The mean times the count is the sum. |

## Left out

- Network and file I/O are left out. That covers the Telegram post, the import-time test message, the yfinance calls with their retries and sleeps, and the CSV reads and writes. Downloads and files are inputs, and the ledger is an in-memory value.
- The send's outcome is not an input of the scan loop. Its return value is discarded at scanner.py:180, so it cannot affect the result.
- The loading-animation thread and the `loading` flag are left out. They are concurrency and terminal output.
- Environment-variable reads and the import-time `ValueError` of the configuration file are left out. They are process state.
- Calendar arithmetic is left out: W-FRI resampling labels and `isocalendar()`. Each bar carries an integer week key and the current `(year, week)` is an input.
- The ledger key pairs the calendar year with the ISO week number (scanner.py:151-153), and the model keeps that pair as given without checking that it names one ISO week. Around New Year the pair is not one ISO week: 2025-12-30 gives `(2025, 1)` and 2026-01-02 gives `(2026, 1)`, although both fall in ISO week 1 of 2026. The run on 2026-01-02 prunes the `(2025, 1)` row, so a symbol alerted on 2025-12-30 can be alerted again in the same ISO week. The promise "once per key" holds; "once per ISO week" does not.
- Floating point is left out. Prices, volumes and ratios are exact reals. NaN is not modelled: not in bars, not in averages, not as the truthiness of `avg_volume`.
- The legacy `calculate_support_resistance`, `detect_breakout` and `get_breakout_signal` methods are left out. They read `self.data`, which the effective constructor never sets.
- alerts_manager.py is not part of this model. It holds only a dataclass, a protocol and a print-based sink.
- Alert message formatting and the run summary printing are left out.
- `fetch_weekly_data` is a parameter of the scan, not a model: its retries, `str.title` renaming and `.NS` ticker are not modelled. The scan sees bars or no data.
- pandas type inference on CSV reads is left out, for example the text "NA" read as null or numeric symbols. Cells arrive already classified as missing, text or non-text.
- Unicode case mapping is left out. `upper`, `lower` and `capitalize` change only ASCII letters.
- BreakoutAnalyzer.EvaluateWeekly: requires `lookbackWeeks >= 1`. A lookback of 0 makes `iloc[-1:-1]` an empty window, whose max and mean are NaN. A negative lookback L makes `iloc[-(L+1):-1]` a different window: L = -1 gives `iloc[0:-1]`, every bar but the last, and L = -2 gives `iloc[1:-1]`. Neither case is modelled.
- BreakoutAnalyzer.Evaluate: requires non-decreasing week keys. A pandas `DatetimeIndex` need not be sorted, and `resample` orders the bars by time before grouping, so the source accepts unsorted daily bars; the model does not cover them.
- BreakoutAnalyzer.ToWeekly: requires non-decreasing week keys too, so unsorted daily bars are not covered, as for `Evaluate`.
- BreakoutAnalyzer.ToWeeklyAggregatesBuckets: requires non-decreasing week keys too, so unsorted daily bars are not covered, as for `Evaluate`.
- BreakoutAnalyzer.ToWeeklyIdempotent: requires non-decreasing week keys too, so unsorted daily bars are not covered, as for `Evaluate`.
- BreakoutAnalyzer.ToWeeklyLastClose: requires non-decreasing week keys too, so unsorted daily bars are not covered, as for `Evaluate`.
- DataFetcher.NormalizeColumns: flattens each label on its own. A frame whose columns mix flat and tiered labels cannot arise from pandas and is not distinguished.
- DataFetcher.FetchOhlcvReturnsRequiredColumns: assumes distinct renamed column names. With duplicates, `frame[required]` returns every column of a repeated name, which `FetchOhlcv` models but this lemma does not describe.
- Exceptions raised inside the scan loop, such as a fetched frame missing a column, are left out. They abort the run and are not modelled.

=== FILE: alert_ledger.dfy ===
/**
 * The duplicate-alert ledger: the `sent_alerts.csv` table of
 * (Symbol, Year, Week) rows, held here as a value. `None` stands for the
 * file not existing; `Some(rows)` for a file holding `rows` in file order.
 */
module AlertLedger {
  import opened Wrappers
  import opened Seqs

  /** One row of the ledger: `symbol` was alerted in ISO week `week` of `year`. */
  datatype AlertRecord = AlertRecord(symbol: string, year: int, week: int)

  /** The ledger file: absent, or present with its rows. */
  type LedgerFile = Option<seq<AlertRecord>>

  /** `load_sent_alerts`: the file's rows, or no rows when the file is missing. */
  function LoadSentAlerts(file: LedgerFile): (rows: seq<AlertRecord>)
    ensures file.None? ==> rows == []
    ensures file.Some? ==> rows == file.value
  {
    match file
    case None => []
    case Some(rows) => rows
  }

  /** `save_sent_alert`: append one row, creating the file if needed. */
  function SaveSentAlert(file: LedgerFile, symbol: string, year: int, week: int): (r: LedgerFile)
    ensures r.Some?
    ensures |r.value| == |LoadSentAlerts(file)| + 1
    ensures r.value[..|r.value| - 1] == LoadSentAlerts(file)
    ensures r.value[|r.value| - 1] == AlertRecord(symbol, year, week)
  {
    var entry := AlertRecord(symbol, year, week);
    match file
    case Some(rows) => Some(rows + [entry])
    case None => Some([entry])
  }

  /** The row mask `Symbol == symbol & Year == year & Week == week`. */
  function SameAlert(symbol: string, year: int, week: int): (p: AlertRecord -> bool) {
    (r: AlertRecord) => r.symbol == symbol && r.year == year && r.week == week
  }

  /** `already_alerted`: some row matches on all three fields (the symbol compared exactly). */
  function AlreadyAlerted(file: LedgerFile, symbol: string, year: int, week: int): (b: bool)
    ensures b <==> AlertRecord(symbol, year, week) in LoadSentAlerts(file)
  {
    var rows := LoadSentAlerts(file);
    var hits := Filter(rows, SameAlert(symbol, year, week));
    FilterMembership(rows, SameAlert(symbol, year, week));
    assert |hits| > 0 ==> hits[0] in hits;
    |hits| > 0
  }

  /** The row mask `Year == year & Week == week`. */
  function InYearWeek(year: int, week: int): (p: AlertRecord -> bool) {
    (r: AlertRecord) => r.year == year && r.week == week
  }

  /**
   * `auto_reset_weekly`: keep only the current week's rows. A missing file
   * stays missing.
   */
  function AutoResetWeekly(file: LedgerFile, year: int, week: int): (r: LedgerFile)
    ensures r.None? <==> file.None?
    ensures r.Some? ==>
              forall x :: x in r.value <==> x in file.value && x.year == year && x.week == week
    ensures |LoadSentAlerts(r)| <= |LoadSentAlerts(file)|
  {
    match file
    case None => None
    case Some(rows) =>
      FilterMembership(rows, InYearWeek(year, week));
      Some(Filter(rows, InYearWeek(year, week)))
  }

  /** Rows kept by the reset stay in file order: resetting a concatenation resets each part. */
  lemma AutoResetWeeklyKeepsOrder(a: seq<AlertRecord>, b: seq<AlertRecord>, year: int, week: int)
    ensures AutoResetWeekly(Some(a + b), year, week).value ==
            AutoResetWeekly(Some(a), year, week).value + AutoResetWeekly(Some(b), year, week).value
  {
    FilterConcat(a, b, InYearWeek(year, week));
  }

  /** Resetting twice in the same week is resetting once. */
  lemma AutoResetWeeklyIdempotent(file: LedgerFile, year: int, week: int)
    ensures AutoResetWeekly(AutoResetWeekly(file, year, week), year, week) == AutoResetWeekly(file, year, week)
  {
    if file.Some? {
      FilterIdempotent(file.value, InYearWeek(year, week));
    }
  }

  /**
   * Saving a row makes exactly that triple alerted in addition to what was
   * alerted before; every other triple keeps its answer.
   */
  lemma AlreadyAlertedAfterSave(file: LedgerFile, symbol: string, year: int, week: int,
                                 s: string, y: int, w: int)
    ensures AlreadyAlerted(SaveSentAlert(file, symbol, year, week), s, y, w) <==>
            AlreadyAlerted(file, s, y, w) || (s == symbol && y == year && w == week)
  {
    var after := LoadSentAlerts(SaveSentAlert(file, symbol, year, week));
    assert after == LoadSentAlerts(file) + [AlertRecord(symbol, year, week)];
  }

  /** `AlreadyAlertedAfterSave` for every triple at once. */
  lemma AlreadyAlertedAfterSaveAll(file: LedgerFile, symbol: string, year: int, week: int)
    ensures forall s, y, w :: AlreadyAlerted(SaveSentAlert(file, symbol, year, week), s, y, w) <==>
                              AlreadyAlerted(file, s, y, w) || (s == symbol && y == year && w == week)
  {
    forall s, y, w
      ensures AlreadyAlerted(SaveSentAlert(file, symbol, year, week), s, y, w) <==>
              AlreadyAlerted(file, s, y, w) || (s == symbol && y == year && w == week)
    {
      AlreadyAlertedAfterSave(file, symbol, year, week, s, y, w);
    }
  }

  /**
   * After the weekly reset, only the current week can be alerted, and for it
   * the answer is unchanged: a new week starts with nothing suppressed.
   */
  lemma AlreadyAlertedAfterReset(file: LedgerFile, year: int, week: int, s: string, y: int, w: int)
    ensures AlreadyAlerted(AutoResetWeekly(file, year, week), s, y, w) <==>
            y == year && w == week && AlreadyAlerted(file, s, y, w)
  {
  }
}

=== FILE: bars.dfy ===
/** One OHLCV row of a price frame, and its columns as sequences. */
module Bars {

  /**
   * One row of an OHLCV frame. `week` stands for the row's calendar position:
   * for a daily row, the key of the W-FRI week it falls in; for a weekly row,
   * the week's own label. Only the order of keys matters to the model.
   */
  datatype Bar = Bar(week: int, open: real, high: real, low: real, close: real, volume: real)

  function Highs(bars: seq<Bar>): (r: seq<real>)
    ensures |r| == |bars| && forall i :: 0 <= i < |bars| ==> r[i] == bars[i].high
  {
    seq(|bars|, i requires 0 <= i < |bars| => bars[i].high)
  }

  function Lows(bars: seq<Bar>): (r: seq<real>)
    ensures |r| == |bars| && forall i :: 0 <= i < |bars| ==> r[i] == bars[i].low
  {
    seq(|bars|, i requires 0 <= i < |bars| => bars[i].low)
  }

  function Volumes(bars: seq<Bar>): (r: seq<real>)
    ensures |r| == |bars| && forall i :: 0 <= i < |bars| ==> r[i] == bars[i].volume
  {
    seq(|bars|, i requires 0 <= i < |bars| => bars[i].volume)
  }
}

=== FILE: breakout_analyzer.dfy ===
/**
 * The weekly breakout analyser: daily bars are grouped into W-FRI weeks, and
 * the last week is a breakout when it closes above the highest high of the
 * preceding `lookbackWeeks` weeks on enough volume.
 */
module BreakoutAnalyzer {
  import opened Wrappers
  import opened Stats
  import opened Seqs
  import opened Bars

  /** The analyser's configuration. */
  datatype BreakoutRule = BreakoutRule(lookbackWeeks: int, minVolumeRatio: real)

  /** The configuration used when none is given. */
  const DefaultRule := BreakoutRule(20, 1.2)

  /** The rule an analyser is built with: the given one, or the default. */
  function AnalyzerRule(rule: Option<BreakoutRule>): (r: BreakoutRule)
    ensures rule.Some? ==> r == rule.value
    ensures rule.None? ==> r.lookbackWeeks == 20 && r.minVolumeRatio == 1.2
  {
    match rule
    case Some(given) => given
    case None => DefaultRule
  }

  // ---------------------------------------------------------------------------
  // Grouping into weeks
  // ---------------------------------------------------------------------------

  /** Rows come in calendar order: week keys never decrease. */
  predicate WeeksAscending(bars: seq<Bar>) {
    forall i, j :: 0 <= i < j < |bars| ==> bars[i].week <= bars[j].week
  }

  /** A proper weekly series: at most one bar per week, in calendar order. */
  predicate WeeksStrictlyAscending(bars: seq<Bar>) {
    forall i, j :: 0 <= i < j < |bars| ==> bars[i].week < bars[j].week
  }

  /** The weeks that have at least one bar. */
  function Weeks(bars: seq<Bar>): (ks: set<int>) {
    set i | 0 <= i < |bars| :: bars[i].week
  }

  function InWeek(k: int): (p: Bar -> bool) {
    (b: Bar) => b.week == k
  }

  /** The bucket of week `k`: the bars that fall in it, in their original order. */
  function Bucket(bars: seq<Bar>, k: int): (b: seq<Bar>) {
    Filter(bars, InWeek(k))
  }

  /** One week's bar from its bucket: first open, highest high, lowest low, last close, total volume. */
  function Aggregate(group: seq<Bar>): (r: Bar)
    requires |group| > 0
    ensures r.week == group[0].week && r.open == group[0].open && r.close == group[|group| - 1].close
    ensures forall i :: 0 <= i < |group| ==> group[i].high <= r.high && r.low <= group[i].low
    ensures r.high in Highs(group) && r.low in Lows(group)
    ensures r.volume == Sum(Volumes(group))
  {
    Bar(group[0].week, group[0].open, Max(Highs(group)), Min(Lows(group)),
        group[|group| - 1].close, Sum(Volumes(group)))
  }

  /** The first `n` bars share the first bar's week, and bar `n` (if any) does not. */
  predicate IsLeadingRun(bars: seq<Bar>, n: nat) {
    && 1 <= n <= |bars|
    && (forall i :: 0 <= i < n ==> bars[i].week == bars[0].week)
    && (n < |bars| ==> bars[n].week != bars[0].week)
  }

  /** Every bar from position `n` on lies in a later week than the first bar. */
  predicate TailIsLater(bars: seq<Bar>, n: nat)
    requires 0 < |bars|
  {
    forall i :: n <= i < |bars| ==> bars[i].week > bars[0].week
  }

  /** Length of the leading run of bars that share the first bar's week. */
  function LeadingRun(bars: seq<Bar>): (n: nat)
    requires |bars| > 0
    ensures IsLeadingRun(bars, n)
  {
    if |bars| == 1 || bars[1].week != bars[0].week then 1
    else 1 + LeadingRun(bars[1..])
  }

  /**
   * `_to_weekly`: one aggregated bar per week that has input bars. Weeks
   * without bars produce nothing (they are dropped, not filled).
   */
  function ToWeekly(bars: seq<Bar>): (r: seq<Bar>)
    requires WeeksAscending(bars)
    ensures WeeksStrictlyAscending(r)
    ensures Weeks(r) == Weeks(bars)
    ensures |r| <= |bars|
    decreases |bars|
  {
    if |bars| == 0 then []
    else
      var n := LeadingRun(bars);
      var rest := ToWeekly(bars[n..]);
      RunTailIsLater(bars, n);
      RunSplitsWeeks(bars, n);
      PrependWeek(Aggregate(bars[..n]), rest);
      [Aggregate(bars[..n])] + rest
  }

  lemma InWeeks(bars: seq<Bar>, i: int)
    requires 0 <= i < |bars|
    ensures bars[i].week in Weeks(bars)
  {
  }

  /** Putting a bar in front of a series of later weeks keeps it strictly ascending. */
  lemma PrependWeek(b: Bar, rest: seq<Bar>)
    requires WeeksStrictlyAscending(rest)
    requires forall k :: k in Weeks(rest) ==> k > b.week
    ensures WeeksStrictlyAscending([b] + rest)
    ensures Weeks([b] + rest) == {b.week} + Weeks(rest)
  {
    var r := [b] + rest;
    forall i, j | 0 <= i < j < |r| ensures r[i].week < r[j].week {
      assert r[j] == rest[j - 1];
      if i == 0 {
        InWeeks(rest, j - 1);
      } else {
        assert r[i] == rest[i - 1];
      }
    }
    forall k | k in Weeks(r) ensures k in {b.week} + Weeks(rest) {
      var i :| 0 <= i < |r| && r[i].week == k;
      if i > 0 { InWeeks(rest, i - 1); }
    }
    forall k | k in Weeks(rest) ensures k in Weeks(r) {
      var i :| 0 <= i < |rest| && rest[i].week == k;
      InWeeks(r, i + 1);
    }
    InWeeks(r, 0);
    assert Weeks(r) == {b.week} + Weeks(rest);
  }

  /** After the leading run, every remaining bar lies in a later week. */
  lemma RunTailIsLater(bars: seq<Bar>, n: nat)
    requires WeeksAscending(bars) && IsLeadingRun(bars, n)
    ensures TailIsLater(bars, n)
  {
    forall i | n <= i < |bars| ensures bars[i].week > bars[0].week {
      assert bars[0].week <= bars[n].week <= bars[i].week;
    }
  }

  /** Every week after the leading run is later than the run's week. */
  lemma TailWeeksAreLater(bars: seq<Bar>, n: nat)
    requires IsLeadingRun(bars, n) && TailIsLater(bars, n)
    ensures forall k :: k in Weeks(bars[n..]) ==> k > bars[0].week
  {
    var tail := bars[n..];
    forall k | k in Weeks(tail) ensures k > bars[0].week {
      var i :| 0 <= i < |tail| && tail[i].week == k;
      assert bars[n + i] == tail[i];
    }
  }

  /** The weeks of a series are the first run's week plus the weeks after it. */
  lemma RunSplitsWeeks(bars: seq<Bar>, n: nat)
    requires IsLeadingRun(bars, n) && TailIsLater(bars, n)
    ensures forall k :: k in Weeks(bars[n..]) ==> k > bars[0].week
    ensures Weeks(bars) == {bars[0].week} + Weeks(bars[n..])
  {
    TailWeeksAreLater(bars, n);
    var tail := bars[n..];
    forall k | k in Weeks(tail) ensures k in Weeks(bars) {
      var i :| 0 <= i < |tail| && tail[i].week == k;
      assert bars[n + i] == tail[i];
      InWeeks(bars, n + i);
    }
    RunWeeksCovered(bars, n);
    InWeeks(bars, 0);
  }

  lemma RunWeeksCovered(bars: seq<Bar>, n: nat)
    requires IsLeadingRun(bars, n)
    ensures Weeks(bars) <= {bars[0].week} + Weeks(bars[n..])
  {
    forall k | k in Weeks(bars) ensures k == bars[0].week || k in Weeks(bars[n..]) {
      var i :| 0 <= i < |bars| && bars[i].week == k;
      WeekOfBar(bars, n, i);
    }
  }

  lemma WeekOfBar(bars: seq<Bar>, n: nat, i: nat)
    requires IsLeadingRun(bars, n) && i < |bars|
    ensures bars[i].week == bars[0].week || bars[i].week in Weeks(bars[n..])
  {
    if i >= n {
      assert bars[n..][i - n] == bars[i];
      InWeeks(bars[n..], i - n);
    }
  }

  /** A week after the first one has the same bucket in the whole series as in the tail after the leading run. */
  lemma BucketOfLaterWeek(bars: seq<Bar>, n: nat, k: int)
    requires IsLeadingRun(bars, n) && TailIsLater(bars, n)
    requires k in Weeks(bars[n..])
    ensures Bucket(bars, k) == Bucket(bars[n..], k)
  {
    TailWeeksAreLater(bars, n);
    var head, tail := bars[..n], bars[n..];
    assert bars == head + tail;
    forall i | 0 <= i < |head| ensures !InWeek(k)(head[i]) {
      assert head[i].week == bars[0].week;
    }
    FilterConcat(head, tail, InWeek(k));
    FilterNone(head, InWeek(k));
  }

  /** The leading run is exactly the first week's bucket. */
  lemma BucketOfFirstWeek(bars: seq<Bar>, n: nat)
    requires IsLeadingRun(bars, n) && TailIsLater(bars, n)
    ensures Bucket(bars, bars[0].week) == bars[..n]
  {
    var k0 := bars[0].week;
    var head, tail := bars[..n], bars[n..];
    assert bars == head + tail;
    forall i | 0 <= i < |head| ensures InWeek(k0)(head[i]) {
      assert head[i] == bars[i];
    }
    forall i | 0 <= i < |tail| ensures !InWeek(k0)(tail[i]) {
      assert tail[i] == bars[n + i];
    }
    FilterConcat(head, tail, InWeek(k0));
    FilterAll(head, InWeek(k0));
    FilterNone(tail, InWeek(k0));
  }

  /** `b` is the aggregate of its week's bucket in `bars`, and that bucket is not empty. */
  predicate AggregatesBucket(bars: seq<Bar>, b: Bar) {
    |Bucket(bars, b.week)| > 0 && b == Aggregate(Bucket(bars, b.week))
  }

  /** Each bar of `weekly` is the aggregate of its week's (non-empty) bucket in `bars`. */
  predicate AggregatesBuckets(bars: seq<Bar>, weekly: seq<Bar>) {
    forall j :: 0 <= j < |weekly| ==> AggregatesBucket(bars, weekly[j])
  }

  /** Every weekly bar `_to_weekly` produces is the aggregate of exactly its week's bucket. */
  lemma {:induction false} ToWeeklyAggregatesBuckets(bars: seq<Bar>)
    requires WeeksAscending(bars)
    ensures AggregatesBuckets(bars, ToWeekly(bars))
    decreases |bars|
  {
    if |bars| > 0 {
      var n := LeadingRun(bars);
      ToWeeklyAggregatesBuckets(bars[n..]);
      RunTailIsLater(bars, n);
      PrependRunAggregate(bars, n, ToWeekly(bars[n..]));
    }
  }

  lemma PrependRunAggregate(bars: seq<Bar>, n: nat, rest: seq<Bar>)
    requires IsLeadingRun(bars, n) && TailIsLater(bars, n)
    requires Weeks(rest) == Weeks(bars[n..])
    requires AggregatesBuckets(bars[n..], rest)
    ensures AggregatesBuckets(bars, [Aggregate(bars[..n])] + rest)
  {
    FirstWeekAggregates(bars, n);
    forall j | 0 <= j < |rest| ensures AggregatesBucket(bars, rest[j]) {
      LaterWeekAggregates(bars, n, rest, j);
    }
    AggregatesBucketsCons(bars, Aggregate(bars[..n]), rest);
  }

  lemma AggregatesBucketsCons(bars: seq<Bar>, b: Bar, rest: seq<Bar>)
    requires AggregatesBucket(bars, b) && AggregatesBuckets(bars, rest)
    ensures AggregatesBuckets(bars, [b] + rest)
  {
    var r := [b] + rest;
    forall j | 0 <= j < |r| ensures AggregatesBucket(bars, r[j]) {
      if j > 0 {
        assert r[j] == rest[j - 1];
      }
    }
  }

  /** The aggregate of the leading run is the aggregate of the first week's bucket. */
  lemma FirstWeekAggregates(bars: seq<Bar>, n: nat)
    requires IsLeadingRun(bars, n) && TailIsLater(bars, n)
    ensures AggregatesBucket(bars, Aggregate(bars[..n]))
  {
    BucketOfFirstWeek(bars, n);
    assert Aggregate(bars[..n]).week == bars[0].week;
  }

  /** A bar of the later weeks aggregates the same bucket in the whole series as in the tail. */
  lemma LaterWeekAggregates(bars: seq<Bar>, n: nat, rest: seq<Bar>, j: nat)
    requires IsLeadingRun(bars, n) && TailIsLater(bars, n)
    requires Weeks(rest) == Weeks(bars[n..])
    requires AggregatesBuckets(bars[n..], rest)
    requires j < |rest|
    ensures AggregatesBucket(bars, rest[j])
  {
    assert AggregatesBucket(bars[n..], rest[j]);
    InWeeks(rest, j);
    BucketOfLaterWeek(bars, n, rest[j].week);
  }

  /** A series that already has one bar per week comes back unchanged. */
  lemma {:induction false} ToWeeklyKeepsWeeklySeries(weekly: seq<Bar>)
    requires WeeksStrictlyAscending(weekly)
    ensures ToWeekly(weekly) == weekly
    decreases |weekly|
  {
    if |weekly| > 0 {
      var n := LeadingRun(weekly);
      assert n == 1;
      assert weekly[..1] == [weekly[0]];
      assert Highs([weekly[0]]) == [weekly[0].high];
      assert Lows([weekly[0]]) == [weekly[0].low];
      assert Volumes([weekly[0]]) == [weekly[0].volume];
      assert [weekly[0].volume][1..] == [];
      assert Sum([weekly[0].volume]) == weekly[0].volume;
      assert Aggregate([weekly[0]]) == weekly[0];
      ToWeeklyKeepsWeeklySeries(weekly[1..]);
    }
  }

  /** Re-aggregating a weekly series by week changes nothing. */
  lemma ToWeeklyIdempotent(bars: seq<Bar>)
    requires WeeksAscending(bars)
    ensures ToWeekly(ToWeekly(bars)) == ToWeekly(bars)
  {
    ToWeeklyKeepsWeeklySeries(ToWeekly(bars));
  }

  /** A strictly ascending series has as many bars as distinct weeks. */
  lemma {:induction false} StrictlyAscendingCountsWeeks(weekly: seq<Bar>)
    requires WeeksStrictlyAscending(weekly)
    ensures |Weeks(weekly)| == |weekly|
    decreases |weekly|
  {
    if |weekly| > 0 {
      StrictlyAscendingCountsWeeks(weekly[1..]);
      WeeksOfCons(weekly);
    }
  }

  /** The weeks of a strictly ascending series: the first bar's week, then the tail's, which lack it. */
  lemma WeeksOfCons(weekly: seq<Bar>)
    requires |weekly| > 0 && WeeksStrictlyAscending(weekly)
    ensures WeeksStrictlyAscending(weekly[1..])
    ensures Weeks(weekly) == {weekly[0].week} + Weeks(weekly[1..])
    ensures weekly[0].week !in Weeks(weekly[1..])
  {
    var tail := weekly[1..];
    forall k | k in Weeks(weekly) ensures k in {weekly[0].week} + Weeks(tail) {
      var i :| 0 <= i < |weekly| && weekly[i].week == k;
      if i > 0 { assert tail[i - 1] == weekly[i]; }
    }
    forall i | 0 <= i < |tail| ensures tail[i].week != weekly[0].week {
      assert weekly[i + 1] == tail[i];
    }
  }

  // ---------------------------------------------------------------------------
  // Evaluation
  // ---------------------------------------------------------------------------

  /** Why the analyser decided as it did. `InsufficientData` reports how many weekly bars there were and how many were needed. */
  datatype Reason = InsufficientData(weeklyBars: nat, needed: int) | Breakout | NoBreakout

  /** The numeric fields of an evaluation; absent when data were insufficient. */
  datatype Metrics = Metrics(close: real, resistance: real, volumeRatio: real, weekEnding: int)

  datatype Evaluation = Evaluation(isBreakout: bool, metrics: Option<Metrics>, reason: Reason)

  /** The `lookback` weekly bars immediately before the last one. */
  function PriorWindow(weekly: seq<Bar>, lookback: nat): (r: seq<Bar>)
    requires |weekly| >= lookback + 1
    ensures |r| == lookback
  {
    weekly[|weekly| - 1 - lookback .. |weekly| - 1]
  }

  /** The series is its older history, then the window, then the last bar: the window excludes the last bar. */
  lemma PriorWindowSplits(weekly: seq<Bar>, lookback: nat)
    requires |weekly| >= lookback + 1
    ensures weekly == weekly[..|weekly| - 1 - lookback] + PriorWindow(weekly, lookback) + [weekly[|weekly| - 1]]
  {
  }

  /**
   * `res` is the highest high among bars `n-1-L .. n-2`: it bounds each of
   * them and is reached by one of them. The last bar is not part of it.
   */
  predicate IsPriorHigh(weekly: seq<Bar>, lookback: nat, res: real)
    requires |weekly| >= lookback + 1
  {
    var n := |weekly|;
    && (forall i :: n - 1 - lookback <= i < n - 1 ==> weekly[i].high <= res)
    && (exists i :: n - 1 - lookback <= i < n - 1 && weekly[i].high == res)
  }

  /** `ratio` relates the last bar's volume to the window's mean volume, and is 0 when that mean is 0. */
  predicate IsVolumeRatio(weekly: seq<Bar>, lookback: nat, ratio: real)
    requires lookback >= 1 && |weekly| >= lookback + 1
  {
    var avg := Mean(Volumes(PriorWindow(weekly, lookback)));
    && (avg != 0.0 ==> ratio * avg == weekly[|weekly| - 1].volume)
    && (avg == 0.0 ==> ratio == 0.0)
  }

  lemma WindowMaxIsPriorHigh(weekly: seq<Bar>, lookback: nat)
    requires lookback >= 1 && |weekly| >= lookback + 1
    ensures IsPriorHigh(weekly, lookback, Max(Highs(PriorWindow(weekly, lookback))))
  {
    var n := |weekly|;
    var window := PriorWindow(weekly, lookback);
    var m := Max(Highs(window));
    forall i | n - 1 - lookback <= i < n - 1 ensures weekly[i].high <= m {
      assert window[i - (n - 1 - lookback)] == weekly[i];
    }
    var k :| 0 <= k < |window| && Highs(window)[k] == m;
    assert weekly[n - 1 - lookback + k] == window[k];
  }

  /**
   * The decision follows from the figures: a breakout iff there are figures,
   * the close is above the resistance and the ratio reaches the minimum; an
   * evaluation with enough data gives reason `Breakout` iff it is a breakout.
   */
  predicate DecidedByFigures(e: Evaluation, rule: BreakoutRule) {
    && (e.isBreakout <==>
          && e.metrics.Some?
          && e.metrics.value.close > e.metrics.value.resistance
          && e.metrics.value.volumeRatio >= rule.minVolumeRatio)
    && (!e.reason.InsufficientData? ==> (e.reason == Breakout <==> e.isBreakout))
  }

  /**
   * Reported figures come from the weekly series: the last bar's close and
   * week, the prior window's highest high as resistance, and the ratio of the
   * last volume to the window's mean volume.
   */
  predicate FiguresOf(weekly: seq<Bar>, rule: BreakoutRule, e: Evaluation)
    requires rule.lookbackWeeks >= 1
  {
    e.metrics.Some? ==>
      && |weekly| >= rule.lookbackWeeks + 2
      && e.metrics.value.close == weekly[|weekly| - 1].close
      && e.metrics.value.weekEnding == weekly[|weekly| - 1].week
      && IsPriorHigh(weekly, rule.lookbackWeeks, e.metrics.value.resistance)
      && IsVolumeRatio(weekly, rule.lookbackWeeks, e.metrics.value.volumeRatio)
  }

  /**
   * `evaluate` after the grouping step. With `n` weekly bars and lookback `L`,
   * fewer than `L + 2` bars is insufficient data; otherwise the last bar is
   * compared with the prior window of bars `n-1-L .. n-2`.
   */
  function EvaluateWeekly(weekly: seq<Bar>, rule: BreakoutRule): (e: Evaluation)
    requires rule.lookbackWeeks >= 1
    ensures |weekly| < rule.lookbackWeeks + 2 <==> e.reason.InsufficientData?
    ensures e.reason.InsufficientData? ==>
              e == Evaluation(false, None, InsufficientData(|weekly|, rule.lookbackWeeks + 2))
    ensures !e.reason.InsufficientData? ==> e.metrics.Some?
    ensures FiguresOf(weekly, rule, e)
    ensures DecidedByFigures(e, rule)
  {
    var minRows := rule.lookbackWeeks + 2;
    if |weekly| < minRows then
      Evaluation(false, None, InsufficientData(|weekly|, minRows))
    else
      var recent := weekly[|weekly| - 1];
      var window := PriorWindow(weekly, rule.lookbackWeeks);
      var resistance := Max(Highs(window));
      var avgVolume := Mean(Volumes(window));
      var volumeRatio := if avgVolume != 0.0 then recent.volume / avgVolume else 0.0;
      var isBreakout := recent.close > resistance && volumeRatio >= rule.minVolumeRatio;
      WindowMaxIsPriorHigh(weekly, rule.lookbackWeeks);
      Evaluation(isBreakout, Some(Metrics(recent.close, resistance, volumeRatio, recent.week)),
                 if isBreakout then Breakout else NoBreakout)
  }

  /**
   * `evaluate`: group the daily bars into weeks, then decide. There is enough
   * data exactly when the bars span at least `lookbackWeeks + 2` distinct
   * weeks; the reported close is the last daily close and the reported week
   * the latest week present; a breakout needs a close above the resistance
   * and a ratio of at least the minimum, and is reported as such.
   */
  function Evaluate(data: seq<Bar>, rule: BreakoutRule): (e: Evaluation)
    requires WeeksAscending(data)
    requires rule.lookbackWeeks >= 1
    ensures e.reason.InsufficientData? <==> |Weeks(data)| < rule.lookbackWeeks + 2
    ensures e.reason.InsufficientData? ==> !e.isBreakout && e.metrics.None?
    ensures !e.reason.InsufficientData? ==> e.metrics.Some?
    ensures e.metrics.Some? ==>
              && e.metrics.value.close == data[|data| - 1].close
              && e.metrics.value.weekEnding in Weeks(data)
              && forall i :: 0 <= i < |data| ==> data[i].week <= e.metrics.value.weekEnding
    ensures e.reason.InsufficientData? ==> e.reason == InsufficientData(|Weeks(data)|, rule.lookbackWeeks + 2)
    ensures FiguresOf(ToWeekly(data), rule, e)
    ensures DecidedByFigures(e, rule)
  {
    var weekly := ToWeekly(data);
    var e := EvaluateWeekly(weekly, rule);
    assert |weekly| == |Weeks(data)| by {
      StrictlyAscendingCountsWeeks(weekly);
    }
    assert |weekly| > 0 ==>
             && weekly[|weekly| - 1].week in Weeks(data)
             && forall i :: 0 <= i < |data| ==> data[i].week <= weekly[|weekly| - 1].week by {
      LastWeekIsLatest(data, weekly);
    }
    assert |data| > 0 ==> |weekly| > 0 && weekly[|weekly| - 1].close == data[|data| - 1].close by {
      ToWeeklyLastClose(data);
    }
    assert e.metrics.Some? ==> 0 < |weekly| <= |data|;
    e
  }

  /** The last weekly bar closes where the last daily bar closed. */
  lemma {:induction false} ToWeeklyLastClose(bars: seq<Bar>)
    requires WeeksAscending(bars)
    ensures |bars| > 0 ==>
              |ToWeekly(bars)| > 0 && ToWeekly(bars)[|ToWeekly(bars)| - 1].close == bars[|bars| - 1].close
    decreases |bars|
  {
    if |bars| > 0 {
      var n := LeadingRun(bars);
      var rest := bars[n..];
      if n < |bars| {
        ToWeeklyLastClose(rest);
        assert rest[|rest| - 1] == bars[|bars| - 1];
        assert ToWeekly(bars) == [Aggregate(bars[..n])] + ToWeekly(rest);
      } else {
        assert bars[..n] == bars;
        assert ToWeekly(rest) == [];
      }
    }
  }

  lemma LastWeekIsLatest(data: seq<Bar>, weekly: seq<Bar>)
    requires WeeksStrictlyAscending(weekly) && Weeks(weekly) == Weeks(data)
    ensures |weekly| > 0 ==> weekly[|weekly| - 1].week in Weeks(data)
    ensures |weekly| > 0 ==> forall i :: 0 <= i < |data| ==> data[i].week <= weekly[|weekly| - 1].week
  {
    if |weekly| > 0 {
      InWeeks(weekly, |weekly| - 1);
      forall i | 0 <= i < |data| ensures data[i].week <= weekly[|weekly| - 1].week {
        InWeeks(data, i);
        var j :| 0 <= j < |weekly| && weekly[j].week == data[i].week;
      }
    }
  }

  /** Equality is not enough: a close that only touches the resistance is never a breakout. */
  lemma CloseAtResistanceIsNoBreakout(weekly: seq<Bar>, rule: BreakoutRule)
    requires rule.lookbackWeeks >= 1 && |weekly| >= rule.lookbackWeeks + 2
    requires IsPriorHigh(weekly, rule.lookbackWeeks, weekly[|weekly| - 1].close)
    ensures !EvaluateWeekly(weekly, rule).isBreakout
    ensures EvaluateWeekly(weekly, rule).reason == NoBreakout
  {
  }

  /** Only the last `lookbackWeeks + 1` weeks matter: older history does not change the decision. */
  lemma EvaluateIgnoresOlderWeeks(older: seq<Bar>, weekly: seq<Bar>, rule: BreakoutRule)
    requires rule.lookbackWeeks >= 1 && |weekly| >= rule.lookbackWeeks + 2
    ensures EvaluateWeekly(older + weekly, rule) == EvaluateWeekly(weekly, rule)
  {
    var all := older + weekly;
    var L := rule.lookbackWeeks;
    assert PriorWindow(all, L) == PriorWindow(weekly, L);
    assert all[|all| - 1] == weekly[|weekly| - 1];
  }

  /**
   * The confirmed-breakout scenario: 22 weekly bars, default rule, prior
   * highs at most 100, a close of 105, a prior mean volume of 1,000,000 and a
   * last volume of 1,300,000.
   */
  lemma ScenarioConfirmedBreakout(weekly: seq<Bar>)
    requires |weekly| == 22
    requires forall i :: 1 <= i < 21 ==> weekly[i].high <= 100.0
    requires weekly[21].close == 105.0 && weekly[21].volume == 1300000.0
    requires Sum(Volumes(weekly[1..21])) == 20000000.0
    ensures EvaluateWeekly(weekly, DefaultRule).isBreakout
    ensures EvaluateWeekly(weekly, DefaultRule).reason == Breakout
    ensures EvaluateWeekly(weekly, DefaultRule).metrics.value.volumeRatio == 1.3
  {
    assert PriorWindow(weekly, 20) == weekly[1..21];
  }

  /** The same scenario with a last volume of 1,100,000: ratio 1.1 is below 1.2, so no breakout. */
  lemma ScenarioVolumeTooLow(weekly: seq<Bar>)
    requires |weekly| == 22
    requires forall i :: 1 <= i < 21 ==> weekly[i].high <= 100.0
    requires weekly[21].close == 105.0 && weekly[21].volume == 1100000.0
    requires Sum(Volumes(weekly[1..21])) == 20000000.0
    ensures !EvaluateWeekly(weekly, DefaultRule).isBreakout
    ensures EvaluateWeekly(weekly, DefaultRule).reason == NoBreakout
    ensures EvaluateWeekly(weekly, DefaultRule).metrics.value.volumeRatio == 1.1
  {
    assert PriorWindow(weekly, 20) == weekly[1..21];
  }
}

=== FILE: config.dfy ===
/**
 * The symbol universe: the Nifty 200 constituent table reduced to a clean
 * symbol list, with a fixed fallback basket when that fails. The table's
 * download is an input.
 */
module Config {
  import opened Wrappers
  import opened Text
  import opened Seqs
  import opened Csv

  /** The basket used whenever the constituent list cannot be obtained or is empty. */
  const FallbackSymbols: seq<string> := [
    "RELIANCE", "TCS", "HDFCBANK", "INFY", "ICICIBANK",
    "KOTAKBANK", "LT", "SBIN", "BHARTIARTL", "HINDUNILVR"
  ]

  /** One column of the constituent table: its header and its cells. */
  datatype TableColumn = TableColumn(name: string, cells: seq<Cell>)

  /** A header naming the symbol column: `name.strip().lower() == "symbol"`. */
  predicate IsSymbolHeader(name: string) {
    Lower(Strip(name)) == "symbol"
  }

  function HeaderNames(columns: seq<TableColumn>): (r: seq<string>)
    ensures |r| == |columns|
    ensures forall i :: 0 <= i < |columns| ==> r[i] == columns[i].name
  {
    seq(|columns|, i requires 0 <= i < |columns| => columns[i].name)
  }

  /** The first column whose header is a symbol header, if any. */
  function FindSymbolColumn(columns: seq<TableColumn>): (r: Option<nat>)
    ensures r.None? <==> forall i :: 0 <= i < |columns| ==> !IsSymbolHeader(columns[i].name)
    ensures r.Some? ==>
              && r.value < |columns| && IsSymbolHeader(columns[r.value].name)
              && forall i :: 0 <= i < r.value ==> !IsSymbolHeader(columns[i].name)
  {
    FindFirst(HeaderNames(columns), IsSymbolHeader)
  }

  /** A cell that `dropna()` keeps. */
  predicate Present(c: Cell) {
    !c.Missing?
  }

  /** Some cell of the column is not null. */
  predicate HasValue(cells: seq<Cell>) {
    exists i :: 0 <= i < |cells| && Present(cells[i])
  }

  /** `astype(str).str.strip().str.upper()` on one cell; a null cell never reaches it. */
  function CellSymbol(c: Cell): (r: string)
    ensures IsNormalized(r)
  {
    if c.Missing? then "" else Normalize(AsText(c))
  }

  /** `s` is the normalised text of some non-null cell. */
  predicate FromCell(cells: seq<Cell>, s: string) {
    exists i :: 0 <= i < |cells| && Present(cells[i]) && s == CellSymbol(cells[i])
  }

  predicate AllNormalized(symbols: seq<string>) {
    forall k :: 0 <= k < |symbols| ==> IsNormalized(symbols[k])
  }

  /** `dropna().astype(str).str.strip().str.upper()`: one normalised symbol per non-null cell, in column order. */
  function CellSymbols(cells: seq<Cell>): (r: seq<string>)
    ensures AllNormalized(r)
    ensures |cells| == 0 ==> r == []
  {
    Map(Filter(cells, Present), CellSymbol)
  }

  /**
   * One cell more at the end of the column adds its symbol at the end when
   * it is not null, and nothing otherwise: the symbols follow column order.
   */
  lemma CellSymbolsSnoc(cells: seq<Cell>, c: Cell)
    ensures CellSymbols(cells + [c]) == CellSymbols(cells) + (if Present(c) then [CellSymbol(c)] else [])
  {
    FilterSnoc(cells, c, Present);
    if Present(c) {
      MapSnoc(Filter(cells, Present), c, CellSymbol);
    } else {
      assert Filter(cells, Present) + [] == Filter(cells, Present);
    }
  }

  /** No symbol comes out exactly when every cell is null. */
  lemma CellSymbolsEmpty(cells: seq<Cell>)
    ensures |CellSymbols(cells)| == 0 <==> !HasValue(cells)
  {
    var kept := Filter(cells, Present);
    FilterMembership(cells, Present);
    if HasValue(cells) {
      var i :| 0 <= i < |cells| && !cells[i].Missing?;
      assert cells[i] in kept;
    } else {
      FilterNone(cells, Present);
    }
  }

  /** Every non-null cell contributes its normalised text, and nothing else is produced. */
  lemma CellSymbolsMembership(cells: seq<Cell>)
    ensures forall s :: s in CellSymbols(cells) <==> FromCell(cells, s)
  {
    var kept := Filter(cells, Present);
    var r := CellSymbols(cells);
    FilterMembership(cells, Present);
    forall s | s in r ensures FromCell(cells, s) {
      var k :| 0 <= k < |r| && r[k] == s;
      assert kept[k] in kept;
      var i :| 0 <= i < |cells| && cells[i] == kept[k];
    }
    forall s | FromCell(cells, s) ensures s in r {
      var i :| 0 <= i < |cells| && Present(cells[i]) && s == CellSymbol(cells[i]);
      assert cells[i] in kept;
      var k :| 0 <= k < |kept| && kept[k] == cells[i];
      assert r[k] == s;
    }
  }

  /** The cells of the table's symbol column, if the table was read and has one. */
  function SymbolCells(table: Option<seq<TableColumn>>): (r: Option<seq<Cell>>)
    ensures r.Some? <==> table.Some? && FindSymbolColumn(table.value).Some?
    ensures r.Some? ==> r.value == table.value[FindSymbolColumn(table.value).value].cells
  {
    match table
    case None => None
    case Some(columns) =>
      match FindSymbolColumn(columns)
      case None => None
      case Some(j) => Some(columns[j].cells)
  }

  /** The column's symbols with repeats removed (`unique()`): clean, and empty only for an all-null column. */
  function ColumnSymbols(cells: seq<Cell>): (r: seq<string>)
    ensures NoDup(r) && AllNormalized(r)
    ensures |r| == 0 <==> !HasValue(cells)
  {
    var values := CellSymbols(cells);
    DedupKeepsNormalized(values);
    DedupKeepsEmptiness(values);
    CellSymbolsEmpty(cells);
    Dedup(values)
  }

  lemma DedupKeepsEmptiness(values: seq<string>)
    ensures |Dedup(values)| == 0 <==> |values| == 0
  {
    if |values| > 0 {
      assert values[0] in values;
    }
  }

  /**
   * `load_nifty200_symbols`. `table` is the downloaded constituent table, or
   * `None` if reading it raised. The result is never empty, holds no repeats
   * and only normalised symbols; it is the fallback basket exactly when no
   * non-null symbol cell was found.
   */
  function LoadNifty200Symbols(table: Option<seq<TableColumn>>): (r: seq<string>)
    ensures |r| > 0
    ensures NoDup(r)
    ensures AllNormalized(r)
    ensures SymbolCells(table).None? ==> r == FallbackSymbols
    ensures SymbolCells(table).Some? && !HasValue(SymbolCells(table).value) ==> r == FallbackSymbols
    ensures SymbolCells(table).Some? && HasValue(SymbolCells(table).value) ==>
              r == Dedup(CellSymbols(SymbolCells(table).value))
  {
    FallbackIsWellFormed();
    match SymbolCells(table)
    case None => FallbackSymbols
    case Some(cells) =>
      var symbols := ColumnSymbols(cells);
      if |symbols| > 0 then symbols else FallbackSymbols
  }

  lemma DedupKeepsNormalized(values: seq<string>)
    requires AllNormalized(values)
    ensures AllNormalized(Dedup(values))
  {
    var d := Dedup(values);
    forall k | 0 <= k < |d| ensures IsNormalized(d[k]) {
      assert d[k] in values;
    }
  }

  /** The fallback basket is itself clean: non-empty, normalised, without repeats. */
  lemma FallbackIsWellFormed()
    ensures |FallbackSymbols| > 0 && NoDup(FallbackSymbols)
    ensures AllNormalized(FallbackSymbols)
  {
    forall k | 0 <= k < |FallbackSymbols| ensures IsNormalized(FallbackSymbols[k]) {
      FallbackEntryIsNormalized(k);
    }
  }

  lemma FallbackEntryIsNormalized(k: nat)
    requires k < |FallbackSymbols|
    ensures IsNormalized(FallbackSymbols[k])
  {
    var s := FallbackSymbols[k];
    assert forall i :: 0 <= i < |s| ==> IsUpperLetter(s[i]);
  }

  /**
   * The deduplicated column holds each normalised cell text exactly once, in
   * order of first appearance; `LoadNifty200Symbols` returns it whenever the
   * symbol column has a value.
   */
  lemma ColumnSymbolsAreValuesInOrder(cells: seq<Cell>)
    ensures var r := ColumnSymbols(cells);
            && (forall s :: s in r <==> FromCell(cells, s))
            && forall i, j :: 0 <= i < j < |r| ==>
                 FirstIndex(CellSymbols(cells), r[i]) < FirstIndex(CellSymbols(cells), r[j])
  {
    CellSymbolsMembership(cells);
    DedupKeepsFirstOccurrenceOrder(CellSymbols(cells));
  }
}

=== FILE: csv.dfy ===
/** A cell of a CSV column as pandas reads it. */
module Csv {

  /**
   * `Missing` is a null cell (NaN), `Text` a string cell, and `NonText` a
   * numeric or other non-string cell, carried with the text `str()` gives it.
   */
  datatype Cell = Missing | Text(s: string) | NonText(repr: string)

  /** `astype(str)` on a non-null cell. */
  function AsText(c: Cell): (s: string)
    requires !c.Missing?
  {
    match c
    case Text(s) => s
    case NonText(repr) => repr
  }
}

=== FILE: data_fetcher.dfy ===
/**
 * The pure parts of the Yahoo Finance client: exchange-suffix normalisation
 * of a symbol, and the checks applied to a downloaded frame before it is
 * handed on. The download itself is an input.
 */
module DataFetcher {
  import opened Wrappers
  import opened Text
  import opened Seqs

  // ---------------------------------------------------------------------------
  // Symbol suffix
  // ---------------------------------------------------------------------------

  const NseSuffix := ".NS"

  /**
   * `ensure_ns_suffix`: strip and upper-case the symbol, then append `.NS`
   * unless it already ends with it.
   */
  function EnsureNsSuffix(symbol: string): (r: string)
    ensures EndsWith(r, NseSuffix)
    ensures IsNormalized(r)
    ensures EndsWith(Normalize(symbol), NseSuffix) ==> r == Normalize(symbol)
    ensures !EndsWith(Normalize(symbol), NseSuffix) ==>
              |r| == |Normalize(symbol)| + 3 && r[..|r| - 3] == Normalize(symbol)
  {
    var s := Normalize(symbol);
    if EndsWith(s, NseSuffix) then s
    else
      SuffixKeepsNormalized(s);
      s + NseSuffix
  }

  lemma SuffixKeepsNormalized(s: string)
    requires IsNormalized(s)
    ensures IsNormalized(s + NseSuffix) && EndsWith(s + NseSuffix, NseSuffix)
    ensures (s + NseSuffix)[..|s|] == s
  {
    var t := s + NseSuffix;
    assert t[|s|..] == NseSuffix;
    assert t[|t| - 1] == 'S';
    assert |s| > 0 ==> t[0] == s[0];
    forall i | 0 <= i < |t| ensures !IsLowerLetter(t[i]) {
      if i >= |s| {
        assert t[i] == NseSuffix[i - |s|];
      }
    }
  }

  /** Applying the suffix twice is applying it once: no `.NS.NS`. */
  lemma EnsureNsSuffixIdempotent(symbol: string)
    ensures EnsureNsSuffix(EnsureNsSuffix(symbol)) == EnsureNsSuffix(symbol)
  {
  }

  // ---------------------------------------------------------------------------
  // Frame validation
  // ---------------------------------------------------------------------------

  /**
   * A column label: a plain name, or a tuple of levels (newer yfinance
   * returns `(field, ticker)` column tuples), whose first level is the field.
   */
  datatype Label = Flat(name: string) | Tiered(top: string, lower: seq<string>)

  datatype Column = Column(header: Label, values: seq<real>)

  /** A downloaded frame: its columns and how many rows it has. */
  datatype Frame = Frame(columns: seq<Column>, rowCount: nat)

  /** Why `fetch_ohlcv` raised `DataFetchError`; each carries the suffixed symbol. */
  datatype FetchError =
    | DownloadFailed(symbol: string)
    | NoData(symbol: string)
    | MissingColumn(column: string, symbol: string)

  /** The columns the scanner needs, in the order it returns them. */
  const Required: seq<string> := ["Open", "High", "Low", "Close", "Volume"]

  /** pandas `DataFrame.empty`: the frame holds no cell at all, for want of rows or of columns. */
  function IsEmpty(f: Frame): (b: bool)
    ensures b <==> f.rowCount * |f.columns| == 0
  {
    f.rowCount == 0 || |f.columns| == 0
  }

  /** The label's first level. */
  function TopName(l: Label): (name: string) {
    match l
    case Flat(name) => name
    case Tiered(top, _) => top
  }

  /** Flatten tuple labels to their first level, then `capitalize` every name. */
  function NormalizeColumns(f: Frame): (g: Frame)
    ensures |g.columns| == |f.columns| && g.rowCount == f.rowCount
    ensures forall i :: 0 <= i < |f.columns| ==>
              && g.columns[i].header == Flat(Capitalize(TopName(f.columns[i].header)))
              && g.columns[i].values == f.columns[i].values
  {
    Frame(seq(|f.columns|, i requires 0 <= i < |f.columns| =>
                Column(Flat(Capitalize(TopName(f.columns[i].header))), f.columns[i].values)),
          f.rowCount)
  }

  /** The columns' names (`frame.columns` after flattening), in column order. */
  function ColumnNames(columns: seq<Column>): (r: seq<string>)
    ensures |r| == |columns|
    ensures forall i :: 0 <= i < |columns| ==> r[i] == TopName(columns[i].header)
  {
    seq(|columns|, i requires 0 <= i < |columns| => TopName(columns[i].header))
  }

  /** The first required name (in `required` order) that `names` lacks, if any. */
  function FirstMissing(names: seq<string>, required: seq<string>): (r: Option<string>)
    ensures r.None? <==> forall k :: 0 <= k < |required| ==> required[k] in names
    ensures r.Some? ==>
              exists k :: 0 <= k < |required| && required[k] == r.value && r.value !in names
                && forall m :: 0 <= m < k ==> required[m] in names
  {
    if |required| == 0 then None
    else if required[0] !in names then Some(required[0])
    else
      var rest := FirstMissing(names, required[1..]);
      if rest.Some? then
        var k :| 0 <= k < |required[1..]| && required[1..][k] == rest.value && rest.value !in names
                 && forall m :: 0 <= m < k ==> required[1..][m] in names;
        assert required[k + 1] == rest.value;
        rest
      else rest
  }

  function HasName(name: string): (p: Column -> bool) {
    (c: Column) => TopName(c.header) == name
  }

  /** `frame[required]`: for each name in turn, the columns carrying it, in frame order. */
  function SelectColumns(columns: seq<Column>, required: seq<string>): (r: seq<Column>)
    ensures forall c :: c in r <==> c in columns && TopName(c.header) in required
  {
    if |required| == 0 then []
    else
      FilterMembership(columns, HasName(required[0]));
      var rest := SelectColumns(columns, required[1..]);
      assert forall n :: n in required <==> n == required[0] || n in required[1..];
      Filter(columns, HasName(required[0])) + rest
  }

  /**
   * `fetch_ohlcv` once the download has returned. `download` is what
   * `yf.download` produced for the suffixed symbol, or `None` if it raised.
   */
  function FetchOhlcv(symbol: string, download: Option<Frame>): (r: Result<Frame, FetchError>)
    ensures download.None? ==> r == Failure(DownloadFailed(EnsureNsSuffix(symbol)))
    ensures download.Some? && IsEmpty(download.value) ==> r == Failure(NoData(EnsureNsSuffix(symbol)))
    ensures r.Success? <==>
              && download.Some? && !IsEmpty(download.value)
              && forall k :: 0 <= k < |Required| ==>
                   Required[k] in ColumnNames(NormalizeColumns(download.value).columns)
    ensures r.Failure? && r.error.MissingColumn? ==>
              && r.error.symbol == EnsureNsSuffix(symbol)
              && r.error.column !in ColumnNames(NormalizeColumns(download.value).columns)
              && exists k :: 0 <= k < |Required| && Required[k] == r.error.column
                   && forall m :: 0 <= m < k ==> Required[m] in ColumnNames(NormalizeColumns(download.value).columns)
    ensures download.Some? && !IsEmpty(download.value) && r.Failure? ==> r.error.MissingColumn?
    ensures r.Success? ==> r.value.rowCount == download.value.rowCount
    ensures r.Success? ==>
              forall c :: c in r.value.columns <==>
                c in NormalizeColumns(download.value).columns && TopName(c.header) in Required
  {
    var nsSymbol := EnsureNsSuffix(symbol);
    match download
    case None => Failure(DownloadFailed(nsSymbol))
    case Some(frame) =>
      if IsEmpty(frame) then Failure(NoData(nsSymbol))
      else
        var normalized := NormalizeColumns(frame);
        match FirstMissing(ColumnNames(normalized.columns), Required)
        case Some(col) => Failure(MissingColumn(col, nsSymbol))
        case None => Success(Frame(SelectColumns(normalized.columns, Required), frame.rowCount))
  }

  /** With one column per name, a name that is present selects exactly that column. */
  lemma {:induction false} FilterUniqueName(columns: seq<Column>, name: string, i: nat)
    requires NoDup(ColumnNames(columns))
    requires i < |columns| && TopName(columns[i].header) == name
    ensures Filter(columns, HasName(name)) == [columns[i]]
  {
    var names := ColumnNames(columns);
    var tail := columns[1..];
    assert ColumnNames(tail) == names[1..];
    if i == 0 {
      forall k | 0 <= k < |tail| ensures !HasName(name)(tail[k]) {
        assert names[k + 1] != names[0];
      }
      FilterNone(tail, HasName(name));
    } else {
      assert names[0] != names[i];
      FilterUniqueName(tail, name, i - 1);
    }
  }

  /** With distinct names, `frame[required]` picks one column per required name, in `required` order. */
  lemma {:induction false} SelectDistinctColumns(columns: seq<Column>, required: seq<string>)
    requires NoDup(ColumnNames(columns))
    requires forall k :: 0 <= k < |required| ==> required[k] in ColumnNames(columns)
    ensures |SelectColumns(columns, required)| == |required|
    ensures forall k :: 0 <= k < |required| ==>
              SelectColumns(columns, required)[k] == columns[FirstIndex(ColumnNames(columns), required[k])]
  {
    if |required| > 0 {
      var names := ColumnNames(columns);
      var i := FirstIndex(names, required[0]);
      FilterUniqueName(columns, required[0], i);
      SelectDistinctColumns(columns, required[1..]);
      var rest := SelectColumns(columns, required[1..]);
      assert SelectColumns(columns, required) == [columns[i]] + rest;
      forall k | 1 <= k < |required|
        ensures SelectColumns(columns, required)[k] == columns[FirstIndex(names, required[k])]
      {
        assert required[1..][k - 1] == required[k];
      }
    }
  }

  /** Some downloaded column, once capitalised, is called `name` and holds `values`. */
  predicate DownloadedAs(frame: Frame, name: string, values: seq<real>) {
    exists i :: 0 <= i < |frame.columns|
      && Capitalize(TopName(frame.columns[i].header)) == name
      && frame.columns[i].values == values
  }

  /**
   * When the normalised names are all distinct, a successful fetch returns
   * exactly Open, High, Low, Close, Volume in that order, each carrying the
   * values of the downloaded column whose capitalised name it is.
   */
  lemma FetchOhlcvReturnsRequiredColumns(symbol: string, frame: Frame)
    requires !IsEmpty(frame)
    requires forall k :: 0 <= k < |Required| ==> Required[k] in ColumnNames(NormalizeColumns(frame).columns)
    requires NoDup(ColumnNames(NormalizeColumns(frame).columns))
    ensures FetchOhlcv(symbol, Some(frame)).Success?
    ensures ColumnNames(FetchOhlcv(symbol, Some(frame)).value.columns) == Required
    ensures forall k :: 0 <= k < |Required| ==>
              DownloadedAs(frame, Required[k], FetchOhlcv(symbol, Some(frame)).value.columns[k].values)
  {
    var selected := SelectColumns(NormalizeColumns(frame).columns, Required);
    assert FetchOhlcv(symbol, Some(frame)).value == Frame(selected, frame.rowCount);
    SelectedColumnsAreRequired(frame);
  }

  /** The selection step alone: one column per required name, each traced back to the download. */
  lemma SelectedColumnsAreRequired(frame: Frame)
    requires NoDup(ColumnNames(NormalizeColumns(frame).columns))
    requires forall k :: 0 <= k < |Required| ==> Required[k] in ColumnNames(NormalizeColumns(frame).columns)
    ensures var selected := SelectColumns(NormalizeColumns(frame).columns, Required);
            && ColumnNames(selected) == Required
            && forall k :: 0 <= k < |Required| ==> DownloadedAs(frame, Required[k], selected[k].values)
  {
    var cols := NormalizeColumns(frame).columns;
    var selected := SelectColumns(cols, Required);
    SelectDistinctColumns(cols, Required);
    SelectedNamesAreRequired(cols, Required);
    forall k | 0 <= k < |Required| ensures DownloadedAs(frame, Required[k], selected[k].values) {
      NormalizedColumnIsDownloaded(frame, FirstIndex(ColumnNames(cols), Required[k]));
    }
  }

  /** With distinct names that include every required one, the selected columns carry exactly the required names. */
  lemma SelectedNamesAreRequired(columns: seq<Column>, required: seq<string>)
    requires NoDup(ColumnNames(columns))
    requires forall k :: 0 <= k < |required| ==> required[k] in ColumnNames(columns)
    ensures ColumnNames(SelectColumns(columns, required)) == required
  {
    SelectDistinctColumns(columns, required);
    var names := ColumnNames(SelectColumns(columns, required));
    forall k | 0 <= k < |required| ensures names[k] == required[k] {
      var i := FirstIndex(ColumnNames(columns), required[k]);
      assert TopName(columns[i].header) == required[k];
    }
  }

  /** Column `i` of the normalised frame is some downloaded column under its capitalised name. */
  lemma NormalizedColumnIsDownloaded(frame: Frame, i: nat)
    requires i < |frame.columns|
    ensures var c := NormalizeColumns(frame).columns[i];
            DownloadedAs(frame, TopName(c.header), c.values)
  {
  }

  /** Header case does not matter: a frame headed `open, high, low, close, volume` in any casing is accepted. */
  lemma FetchOhlcvAcceptsAnyHeaderCase(symbol: string, frame: Frame)
    requires frame.rowCount > 0 && |frame.columns| == |Required|
    requires forall k :: 0 <= k < |Required| ==>
               TopName(frame.columns[k].header) in {Lower(Required[k]), Upper(Required[k]), Required[k]}
    ensures FetchOhlcv(symbol, Some(frame)).Success?
  {
    var names := ColumnNames(NormalizeColumns(frame).columns);
    forall k | 0 <= k < |Required| ensures Required[k] in names {
      CapitalizeIgnoresCase(Required[k]);
      RequiredIsCapitalized(k);
      assert names[k] == Capitalize(TopName(frame.columns[k].header));
    }
  }

  lemma RequiredIsCapitalized(k: nat)
    requires k < |Required|
    ensures Capitalize(Required[k]) == Required[k]
  {
    var name := Required[k];
    assert !IsLowerLetter(name[0]);
    assert forall i :: 1 <= i < |name| ==> !IsUpperLetter(name[i]);
    CapitalizeKeepsCapitalized(name);
  }
}

=== FILE: scanner.dfy ===
/**
 * The scanner script: its own weekly breakout test, the choice of symbols to
 * scan, and the scan loop that alerts each fresh breakout once per
 * `(year, week)` key, using the alert ledger to suppress repeats. The
 * answers of the price downloads are a parameter (`fetch`, one per
 * iteration), the current `(year, week)` is an input, and the Telegram send
 * is an effect whose answer the loop discards.
 */
module Scanner {
  import opened Wrappers
  import opened Text
  import opened Seqs
  import opened Stats
  import opened Bars
  import opened Csv
  import opened AlertLedger
  import opened Config
  import BreakoutAnalyzer

  /** Rolling window length of the scanner's test. */
  const WeeksLookback: nat := 20

  /** Required multiple of the average volume. */
  const VolumeMultiplier: real := 1.2

  // ---------------------------------------------------------------------------
  // check_weekly_breakout
  // ---------------------------------------------------------------------------

  /** The result of `check_weekly_breakout`: too few rows, or the decision and the figures behind it. */
  datatype WeeklyCheck =
    | NotEnoughRows
    | Checked(breakout: bool, previousHigh: real, close: real, volume: real)

  /** The last `WeeksLookback` rows, the current one included: the window of `rolling(20).mean()`. */
  function VolumeWindow(rows: seq<Bar>): (r: seq<Bar>)
    requires |rows| >= WeeksLookback
    ensures |r| == WeeksLookback
  {
    rows[|rows| - WeeksLookback..]
  }

  /** The window is the tail of the rows: the older rows followed by it make up the rows, the current one last. */
  lemma VolumeWindowSplits(rows: seq<Bar>)
    requires |rows| >= WeeksLookback
    ensures rows == rows[..|rows| - WeeksLookback] + VolumeWindow(rows)
    ensures VolumeWindow(rows)[WeeksLookback - 1] == rows[|rows| - 1]
  {
  }

  /**
   * `check_weekly_breakout`. With at least `WeeksLookback + 1` rows, the
   * previous high is the highest high of the 20 rows before the last one
   * (`rolling(20).max().shift(1)`), and the last row breaks out when it
   * closes strictly above it on strictly more than 1.2 times the mean volume
   * of the last 20 rows, itself included.
   */
  function CheckWeeklyBreakout(rows: seq<Bar>): (c: WeeklyCheck)
    ensures c.NotEnoughRows? <==> |rows| < WeeksLookback + 1
    ensures c.Checked? ==>
              && c.close == rows[|rows| - 1].close
              && c.volume == rows[|rows| - 1].volume
              && BreakoutAnalyzer.IsPriorHigh(rows, WeeksLookback, c.previousHigh)
              && (c.breakout <==>
                    && c.close > c.previousHigh
                    && c.volume * WeeksLookback as real > VolumeMultiplier * Sum(Volumes(VolumeWindow(rows))))
  {
    if |rows| < WeeksLookback + 1 then NotEnoughRows
    else
      var last := rows[|rows| - 1];
      var previousHigh := Max(Highs(BreakoutAnalyzer.PriorWindow(rows, WeeksLookback)));
      var avgVolume := Mean(Volumes(VolumeWindow(rows)));
      BreakoutAnalyzer.WindowMaxIsPriorHigh(rows, WeeksLookback);
      Checked(last.close > previousHigh && last.volume > avgVolume * VolumeMultiplier,
              previousHigh, last.close, last.volume)
  }

  /** The rows pass the scanner's test. */
  predicate BrokeOut(rows: seq<Bar>) {
    var c := CheckWeeklyBreakout(rows);
    c.Checked? && c.breakout
  }

  // ---------------------------------------------------------------------------
  // Symbol selection in main
  // ---------------------------------------------------------------------------

  /** Every non-null cell of the column is a string, so `s.strip()` applies to each. */
  predicate AllText(column: seq<Cell>) {
    forall i :: 0 <= i < |column| ==> !column[i].NonText?
  }

  /** The symbols to scan, or the CSV error that makes `main` return early. */
  datatype Selection = Selected(symbols: seq<string>) | CsvLoadError

  /** A command-line string that argparse supplied and that Python treats as true. */
  predicate Given(arg: Option<string>) {
    arg.Some? && |arg.value| > 0
  }

  /** A `--max-symbols` value that Python treats as true. */
  predicate Limits(maxSymbols: Option<int>) {
    maxSymbols.Some? && maxSymbols.value != 0
  }

  /**
   * The symbol choice of `main`. `symbolArg` and `maxSymbols` are the parsed
   * `--symbol` and `--max-symbols` options; `csvColumn` is the first column
   * of the symbol CSV, or `None` when the file cannot be read or has no
   * column. A non-string cell makes `strip()` raise, which is the same
   * early return.
   */
  function SelectSymbols(symbolArg: Option<string>, csvColumn: Option<seq<Cell>>, maxSymbols: Option<int>): (s: Selection)
    ensures Given(symbolArg) ==> s == Selected([Normalize(symbolArg.value)])
    ensures !Given(symbolArg) ==> (s.CsvLoadError? <==> csvColumn.None? || !AllText(csvColumn.value))
    ensures s.Selected? ==> AllNormalized(s.symbols)
    ensures !Given(symbolArg) && s.Selected? ==>
              && s.symbols <= CellSymbols(csvColumn.value)
              && (!Limits(maxSymbols) ==> s.symbols == CellSymbols(csvColumn.value))
              && (Limits(maxSymbols) && maxSymbols.value > 0 ==>
                    |s.symbols| == if maxSymbols.value < |CellSymbols(csvColumn.value)|
                                   then maxSymbols.value else |CellSymbols(csvColumn.value)|)
              && (Limits(maxSymbols) && maxSymbols.value < 0 ==>
                    |s.symbols| == if -maxSymbols.value < |CellSymbols(csvColumn.value)|
                                   then |CellSymbols(csvColumn.value)| + maxSymbols.value else 0)
  {
    if Given(symbolArg) then
      assert AllNormalized([Normalize(symbolArg.value)]);
      Selected([Normalize(symbolArg.value)])
    else if csvColumn.None? || !AllText(csvColumn.value) then CsvLoadError
    else
      var symbols := CellSymbols(csvColumn.value);
      var chosen := if Limits(maxSymbols) then SliceTo(symbols, maxSymbols.value) else symbols;
      PrefixKeepsNormalized(symbols, chosen);
      Selected(chosen)
  }

  lemma PrefixKeepsNormalized(symbols: seq<string>, prefix: seq<string>)
    requires AllNormalized(symbols) && prefix <= symbols
    ensures AllNormalized(prefix)
  {
    forall k | 0 <= k < |prefix| ensures IsNormalized(prefix[k]) {
      assert prefix[k] == symbols[k];
    }
  }

  /** The symbols read from the CSV are exactly the normalised texts of its non-null cells. */
  lemma SelectedFromCsv(csvColumn: seq<Cell>)
    requires AllText(csvColumn)
    ensures SelectSymbols(None, Some(csvColumn), None).Selected?
    ensures forall s :: s in SelectSymbols(None, Some(csvColumn), None).symbols <==> FromCell(csvColumn, s)
  {
    CellSymbolsMembership(csvColumn);
  }

  // ---------------------------------------------------------------------------
  // The scan loop
  // ---------------------------------------------------------------------------

  /** What the loop has produced so far: the alerted symbols, in order, and the ledger file. */
  datatype ScanState = ScanState(results: seq<string>, ledger: LedgerFile)

  /**
   * What the downloads of one run returned: `fetch(i)` is the answer of
   * `fetch_weekly_data` at the i-th iteration of the loop. A symbol listed
   * twice is downloaded twice, and the two answers may differ.
   */
  type Downloads = nat -> Option<seq<Bar>>

  /** Which positions' downloads found data that passes the test. */
  function BrokeOutAt(fetch: Downloads): (hit: nat -> bool) {
    (i: nat) => fetch(i).Some? && BrokeOut(fetch(i).value)
  }

  /** Some position of the list that holds `s` had a download that passes the test. */
  predicate SomeOccurrenceBrokeOut(symbols: seq<string>, fetch: Downloads, s: string) {
    OccursWhere(symbols, s, BrokeOutAt(fetch))
  }

  /** The ledger row written for an alert this week. */
  function AlertFor(year: int, week: int): (f: string -> AlertRecord) {
    (s: string) => AlertRecord(s, year, week)
  }

  /**
   * One iteration of the loop on `symbol`, whose download returned `data`:
   * no data is skipped; data that passes the test, for a symbol not yet
   * alerted this week, appends the symbol to the results and records it in
   * the ledger, whatever the send returned.
   */
  function ScanStep(st: ScanState, symbol: string, data: Option<seq<Bar>>, year: int, week: int): (r: ScanState)
    ensures AlertedExactly(st, r, if data.Some? && BrokeOut(data.value) && !AlreadyAlerted(st.ledger, symbol, year, week)
                                  then [symbol] else [], year, week)
    ensures data.Some? && BrokeOut(data.value) ==> AlreadyAlerted(r.ledger, symbol, year, week)
    ensures forall s, y, w :: AlreadyAlerted(st.ledger, s, y, w) ==> AlreadyAlerted(r.ledger, s, y, w)
  {
    AlreadyAlertedAfterSaveAll(st.ledger, symbol, year, week);
    assert Map([symbol], AlertFor(year, week)) == [AlertRecord(symbol, year, week)];
    assert Map([], AlertFor(year, week)) == [];
    match data
    case None => st
    case Some(rows) =>
      if BrokeOut(rows) && !AlreadyAlerted(st.ledger, symbol, year, week) then
        ScanState(st.results + [symbol], SaveSentAlert(st.ledger, symbol, year, week))
      else st
  }

  /** `for symbol in symbols`: the steps applied in order, starting from `init`, the i-th on the i-th download. */
  function ScanLoop(init: ScanState, symbols: seq<string>, fetch: Downloads, year: int, week: int): (r: ScanState)
    ensures init.results <= r.results
    decreases |symbols|
  {
    if |symbols| == 0 then init
    else
      var n := |symbols| - 1;
      ScanStep(ScanLoop(init, symbols[..n], fetch, year, week), symbols[n], fetch(n), year, week)
  }

  /**
   * The symbols at the positions whose download passed the test, keeping
   * only symbols `ledger` had not alerted this week: in list order, with
   * repeats.
   */
  function Candidates(ledger: LedgerFile, symbols: seq<string>, fetch: Downloads, year: int, week: int): (r: seq<string>)
    decreases |symbols|
  {
    if |symbols| == 0 then []
    else
      var n := |symbols| - 1;
      Candidates(ledger, symbols[..n], fetch, year, week)
        + (if BrokeOutAt(fetch)(n) && !AlreadyAlerted(ledger, symbols[n], year, week) then [symbols[n]] else [])
  }

  /** A candidate is a symbol some of whose downloads broke out and that the ledger had not alerted. */
  lemma {:induction false} CandidatesMembership(ledger: LedgerFile, symbols: seq<string>, fetch: Downloads, year: int, week: int)
    ensures forall s :: s in Candidates(ledger, symbols, fetch, year, week) <==>
              SomeOccurrenceBrokeOut(symbols, fetch, s) && !AlreadyAlerted(ledger, s, year, week)
    decreases |symbols|
  {
    if |symbols| > 0 {
      var n := |symbols| - 1;
      CandidatesMembership(ledger, symbols[..n], fetch, year, week);
      forall s ensures SomeOccurrenceBrokeOut(symbols, fetch, s) <==>
                       SomeOccurrenceBrokeOut(symbols[..n], fetch, s) || (symbols[n] == s && BrokeOutAt(fetch)(n))
      {
        OccursWhereOfLast(symbols, s, BrokeOutAt(fetch));
      }
    }
  }

  /** The symbols the loop alerts, by an independent description: the candidates, each once, in order of first occurrence. */
  function Alerts(init: LedgerFile, symbols: seq<string>, fetch: Downloads, year: int, week: int): (r: seq<string>) {
    Dedup(Candidates(init, symbols, fetch, year, week))
  }

  /**
   * `r` is what scanning from `init` leaves after alerting `alerts`: those
   * symbols appended to the results, one ledger row each appended to the
   * file, and a file that exists when it did before or something was saved.
   */
  predicate AlertedExactly(init: ScanState, r: ScanState, alerts: seq<string>, year: int, week: int) {
    && r.results == init.results + alerts
    && LoadSentAlerts(r.ledger) == LoadSentAlerts(init.ledger) + Map(alerts, AlertFor(year, week))
    && (r.ledger.Some? <==> init.ledger.Some? || |alerts| > 0)
  }

  /** The loop alerts exactly `Alerts`: the candidates with respect to the starting ledger, each once, in order. */
  lemma {:induction false} ScanLoopAlertsFreshBreakouts(init: ScanState, symbols: seq<string>,
                                                        fetch: Downloads, year: int, week: int)
    ensures AlertedExactly(init, ScanLoop(init, symbols, fetch, year, week),
                           Alerts(init.ledger, symbols, fetch, year, week), year, week)
    decreases |symbols|
  {
    if |symbols| > 0 {
      ScanLoopAlertsFreshBreakouts(init, symbols[..|symbols| - 1], fetch, year, week);
      ScanStepExtendsAlerts(init, symbols, fetch, year, week);
    }
  }

  /** The last position extends the alerts of the ones before it exactly as `Alerts` says. */
  lemma ScanStepExtendsAlerts(init: ScanState, symbols: seq<string>, fetch: Downloads, year: int, week: int)
    requires |symbols| > 0
    requires var prefix := symbols[..|symbols| - 1];
             AlertedExactly(init, ScanLoop(init, prefix, fetch, year, week),
                            Alerts(init.ledger, prefix, fetch, year, week), year, week)
    ensures AlertedExactly(init, ScanLoop(init, symbols, fetch, year, week),
                           Alerts(init.ledger, symbols, fetch, year, week), year, week)
  {
    var n := |symbols| - 1;
    var x := symbols[n];
    var prev := ScanLoop(init, symbols[..n], fetch, year, week);
    var before := Alerts(init.ledger, symbols[..n], fetch, year, week);
    var step := if BrokeOutAt(fetch)(n) && !AlreadyAlerted(prev.ledger, x, year, week) then [x] else [];
    assert ScanLoop(init, symbols, fetch, year, week) == ScanStep(prev, x, fetch(n), year, week);
    AlertsOfLast(init.ledger, symbols, fetch, year, week);
    SavedRecordsAreAlerts(init.ledger, before, x, year, week);
    assert Alerts(init.ledger, symbols, fetch, year, week) == before + step;
    AlertedExactlyThen(init, prev, ScanStep(prev, x, fetch(n), year, week), before, step, year, week);
  }

  /** Alerting `first` and then `next` is alerting `first + next`. */
  lemma AlertedExactlyThen(a: ScanState, b: ScanState, c: ScanState, first: seq<string>, next: seq<string>,
                           year: int, week: int)
    requires AlertedExactly(a, b, first, year, week) && AlertedExactly(b, c, next, year, week)
    ensures AlertedExactly(a, c, first + next, year, week)
  {
    var f := AlertFor(year, week);
    MapConcat(first, next, f);
    assert c.results == a.results + first + next == a.results + (first + next);
    assert LoadSentAlerts(c.ledger) == LoadSentAlerts(a.ledger) + Map(first, f) + Map(next, f)
                                    == LoadSentAlerts(a.ledger) + Map(first + next, f);
    assert |first + next| == |first| + |next|;
  }

  /** `Alerts` grows by the last symbol exactly when its download broke out and it is not alerted in any way yet. */
  lemma AlertsOfLast(ledger: LedgerFile, symbols: seq<string>, fetch: Downloads, year: int, week: int)
    requires |symbols| > 0
    ensures var n := |symbols| - 1;
            var x := symbols[n];
            var before := Alerts(ledger, symbols[..n], fetch, year, week);
            Alerts(ledger, symbols, fetch, year, week) ==
              if BrokeOutAt(fetch)(n) && !AlreadyAlerted(ledger, x, year, week) && x !in before
              then before + [x] else before
  {
    var n := |symbols| - 1;
    var x := symbols[n];
    var c := Candidates(ledger, symbols[..n], fetch, year, week);
    if BrokeOutAt(fetch)(n) && !AlreadyAlerted(ledger, x, year, week) {
      DedupSnoc(c, x);
    } else {
      assert c + [] == c;
    }
  }

  /**
   * With the rows of `alerts` appended, a symbol counts as already alerted
   * this week exactly when it did before or it is one of `alerts`.
   */
  lemma SavedRecordsAreAlerts(init: LedgerFile, alerts: seq<string>, x: string, year: int, week: int)
    ensures (AlertRecord(x, year, week) in LoadSentAlerts(init) + Map(alerts, AlertFor(year, week))) <==>
            AlreadyAlerted(init, x, year, week) || x in alerts
  {
    var rows := Map(alerts, AlertFor(year, week));
    if AlertRecord(x, year, week) in rows {
      var k :| 0 <= k < |rows| && rows[k] == AlertRecord(x, year, week);
      assert alerts[k] == x;
    }
    if x in alerts {
      var k :| 0 <= k < |alerts| && alerts[k] == x;
      assert rows[k] == AlertRecord(x, year, week);
    }
  }

  /**
   * The loop's promises in the terms of the script: a symbol is alerted iff
   * the download at one of its positions broke out and it was not in the
   * ledger for this week at loop start; no symbol is alerted twice, even if
   * it is listed twice; and every alert has its ledger row.
   */
  lemma ScanLoopSoundAndComplete(init: LedgerFile, symbols: seq<string>, fetch: Downloads, year: int, week: int)
    ensures var r := ScanLoop(ScanState([], init), symbols, fetch, year, week);
            && NoDup(r.results)
            && (forall s :: s in r.results <==>
                  SomeOccurrenceBrokeOut(symbols, fetch, s) && !AlreadyAlerted(init, s, year, week))
            && (forall s :: s in r.results ==> AlreadyAlerted(r.ledger, s, year, week))
  {
    var r := ScanLoop(ScanState([], init), symbols, fetch, year, week);
    ScanLoopAlertsFreshBreakouts(ScanState([], init), symbols, fetch, year, week);
    assert r.results == Alerts(init, symbols, fetch, year, week);
    CandidatesMembership(init, symbols, fetch, year, week);
    forall s | s in r.results ensures AlreadyAlerted(r.ledger, s, year, week) {
      SavedRecordsAreAlerts(init, r.results, s, year, week);
    }
  }

  /**
   * A symbol listed twice is downloaded twice. When the second download
   * breaks out, the symbol is alerted exactly once, whatever the first
   * download returned.
   */
  lemma RepeatedSymbolAlertedOnce(init: LedgerFile, s: string, fetch: Downloads, year: int, week: int)
    requires BrokeOutAt(fetch)(1) && !AlreadyAlerted(init, s, year, week)
    ensures ScanLoop(ScanState([], init), [s, s], fetch, year, week).results == [s]
  {
    var start := ScanState([], init);
    var first := ScanStep(start, s, fetch(0), year, week);
    ScanLoopOfTwo(start, s, fetch, year, week);
    if first != start {
      AlreadyAlertedAfterSave(init, s, year, week, s, year, week);
    }
  }

  /** Scanning a two-element list is two steps, on the first and the second download. */
  lemma ScanLoopOfTwo(start: ScanState, s: string, fetch: Downloads, year: int, week: int)
    ensures ScanLoop(start, [s, s], fetch, year, week) ==
            ScanStep(ScanStep(start, s, fetch(0), year, week), s, fetch(1), year, week)
  {
    assert [s][..0] == [];
    assert ScanLoop(start, [], fetch, year, week) == start;
    assert ScanLoop(start, [s], fetch, year, week) == ScanStep(start, s, fetch(0), year, week);
    assert [s, s][..1] == [s];
  }

  /**
   * The ledger never gains a repeated row: if the file held no duplicates
   * at loop start, it holds none afterwards.
   */
  lemma ScanLoopKeepsLedgerDuplicateFree(init: LedgerFile, symbols: seq<string>, fetch: Downloads, year: int, week: int)
    requires NoDup(LoadSentAlerts(init))
    ensures NoDup(LoadSentAlerts(ScanLoop(ScanState([], init), symbols, fetch, year, week).ledger))
  {
    var alerts := Alerts(init, symbols, fetch, year, week);
    var rows := Map(alerts, AlertFor(year, week));
    ScanLoopAlertsFreshBreakouts(ScanState([], init), symbols, fetch, year, week);
    AlertRowsAreNew(init, symbols, fetch, year, week);
    NoDupConcat(LoadSentAlerts(init), rows);
  }

  /** The rows the loop appends are distinct from each other and from every row already in the file. */
  lemma AlertRowsAreNew(init: LedgerFile, symbols: seq<string>, fetch: Downloads, year: int, week: int)
    ensures var rows := Map(Alerts(init, symbols, fetch, year, week), AlertFor(year, week));
            && NoDup(rows)
            && forall x :: x in LoadSentAlerts(init) ==> x !in rows
  {
    var candidates := Candidates(init, symbols, fetch, year, week);
    var alerts := Alerts(init, symbols, fetch, year, week);
    var rows := Map(alerts, AlertFor(year, week));
    forall i, j | 0 <= i < j < |rows| ensures rows[i] != rows[j] {
      assert alerts[i] != alerts[j];
    }
    CandidatesMembership(init, symbols, fetch, year, week);
    forall k | 0 <= k < |rows| ensures rows[k] !in LoadSentAlerts(init) {
      assert alerts[k] in candidates;
    }
  }

  // ---------------------------------------------------------------------------
  // main
  // ---------------------------------------------------------------------------

  /** How a run of `main` ends: the early return on a CSV error, or the alerts and the ledger left behind. */
  datatype RunOutcome = CsvLoadFailed | Completed(results: seq<string>, ledger: LedgerFile)

  /**
   * `main` without its printing: select the symbols, reset the ledger to the
   * current week, then scan. A CSV error returns before the reset, so the
   * ledger file is left as it was.
   */
  function Run(symbolArg: Option<string>, csvColumn: Option<seq<Cell>>, maxSymbols: Option<int>,
               ledger: LedgerFile, fetch: Downloads, year: int, week: int): (o: RunOutcome)
    ensures o.CsvLoadFailed? <==> SelectSymbols(symbolArg, csvColumn, maxSymbols).CsvLoadError?
    ensures o.Completed? ==> (o.ledger.Some? <==> ledger.Some? || |o.results| > 0)
  {
    match SelectSymbols(symbolArg, csvColumn, maxSymbols)
    case CsvLoadError => CsvLoadFailed
    case Selected(symbols) =>
      var reset := AutoResetWeekly(ledger, year, week);
      var st := ScanLoop(ScanState([], reset), symbols, fetch, year, week);
      ScanLoopAlertsFreshBreakouts(ScanState([], reset), symbols, fetch, year, week);
      Completed(st.results, st.ledger)
  }

  /** After a completed run the ledger holds only this week's rows. */
  lemma RunKeepsOnlyCurrentWeek(symbolArg: Option<string>, csvColumn: Option<seq<Cell>>, maxSymbols: Option<int>,
                                ledger: LedgerFile, fetch: Downloads, year: int, week: int)
    requires SelectSymbols(symbolArg, csvColumn, maxSymbols).Selected?
    ensures var o := Run(symbolArg, csvColumn, maxSymbols, ledger, fetch, year, week);
            && o.Completed?
            && forall x :: x in LoadSentAlerts(o.ledger) ==> x.year == year && x.week == week
  {
    var symbols := SelectSymbols(symbolArg, csvColumn, maxSymbols).symbols;
    var reset := AutoResetWeekly(ledger, year, week);
    var o := Run(symbolArg, csvColumn, maxSymbols, ledger, fetch, year, week);
    ScanLoopAlertsFreshBreakouts(ScanState([], reset), symbols, fetch, year, week);
    var rows := Map(Alerts(reset, symbols, fetch, year, week), AlertFor(year, week));
    assert LoadSentAlerts(o.ledger) == LoadSentAlerts(reset) + rows;
    forall x | x in rows ensures x.year == year && x.week == week {
      var k :| 0 <= k < |rows| && rows[k] == x;
    }
  }

  /**
   * A completed run alerts exactly the fresh breakouts among the selected
   * symbols, judged against the ledger as it was before the reset: the
   * reset forgets only other weeks, which could not suppress anything.
   */
  lemma RunAlertsFreshBreakouts(symbolArg: Option<string>, csvColumn: Option<seq<Cell>>, maxSymbols: Option<int>,
                                ledger: LedgerFile, fetch: Downloads, year: int, week: int)
    requires SelectSymbols(symbolArg, csvColumn, maxSymbols).Selected?
    ensures var o := Run(symbolArg, csvColumn, maxSymbols, ledger, fetch, year, week);
            o.Completed? &&
            o.results == Alerts(ledger, SelectSymbols(symbolArg, csvColumn, maxSymbols).symbols, fetch, year, week)
  {
    var symbols := SelectSymbols(symbolArg, csvColumn, maxSymbols).symbols;
    var reset := AutoResetWeekly(ledger, year, week);
    ScanLoopAlertsFreshBreakouts(ScanState([], reset), symbols, fetch, year, week);
    ResetKeepsAlerts(ledger, symbols, fetch, year, week);
  }

  /** Judged against the reset ledger or the original one, the same symbols are alerted. */
  lemma ResetKeepsAlerts(ledger: LedgerFile, symbols: seq<string>, fetch: Downloads, year: int, week: int)
    ensures Alerts(AutoResetWeekly(ledger, year, week), symbols, fetch, year, week) == Alerts(ledger, symbols, fetch, year, week)
  {
    ResetKeepsCandidates(ledger, symbols, fetch, year, week);
  }

  /** The reset forgets only other weeks' rows, so no candidate changes. */
  lemma {:induction false} ResetKeepsCandidates(ledger: LedgerFile, symbols: seq<string>, fetch: Downloads, year: int, week: int)
    ensures Candidates(AutoResetWeekly(ledger, year, week), symbols, fetch, year, week) ==
            Candidates(ledger, symbols, fetch, year, week)
    decreases |symbols|
  {
    if |symbols| > 0 {
      var n := |symbols| - 1;
      ResetKeepsCandidates(ledger, symbols[..n], fetch, year, week);
      AlreadyAlertedAfterReset(ledger, year, week, symbols[n], year, week);
    }
  }

  // ---------------------------------------------------------------------------
  // The scanner's test against the analyser's
  // ---------------------------------------------------------------------------

  /** Two values that both are the prior high of the same window are equal. */
  lemma PriorHighIsUnique(rows: seq<Bar>, lookback: nat, a: real, b: real)
    requires |rows| >= lookback + 1
    requires BreakoutAnalyzer.IsPriorHigh(rows, lookback, a)
    requires BreakoutAnalyzer.IsPriorHigh(rows, lookback, b)
    ensures a == b
  {
    var n := |rows|;
    var i :| n - 1 - lookback <= i < n - 1 && rows[i].high == a;
    var j :| n - 1 - lookback <= j < n - 1 && rows[j].high == b;
  }

  /**
   * On a weekly series long enough for both, the price test is the same:
   * the analyser's default resistance is the scanner's previous high.
   */
  lemma PriceTestsAgree(weekly: seq<Bar>)
    requires |weekly| >= BreakoutAnalyzer.DefaultRule.lookbackWeeks + 2
    ensures var e := BreakoutAnalyzer.EvaluateWeekly(weekly, BreakoutAnalyzer.DefaultRule);
            var c := CheckWeeklyBreakout(weekly);
            && e.metrics.Some? && c.Checked?
            && e.metrics.value.resistance == c.previousHigh
            && e.metrics.value.close == c.close
  {
    var e := BreakoutAnalyzer.EvaluateWeekly(weekly, BreakoutAnalyzer.DefaultRule);
    var c := CheckWeeklyBreakout(weekly);
    PriorHighIsUnique(weekly, 20, e.metrics.value.resistance, c.previousHigh);
  }

  /**
   * The volume tests differ. Twenty-one flat weeks at volume 1 and high 100,
   * then a week closing at 105 on volume 1.2: the analyser's ratio against
   * the prior mean is exactly 1.2, a breakout; the scanner's mean includes
   * the current week (20.2 / 20 = 1.01), and 1.2 is not above 1.212.
   */
  lemma VolumeTestsDiffer(weekly: seq<Bar>)
    requires |weekly| == 22
    requires forall i :: 0 <= i < 21 ==> weekly[i] == Bar(i, 100.0, 100.0, 100.0, 100.0, 1.0)
    requires weekly[21] == Bar(21, 100.0, 105.0, 100.0, 105.0, 1.2)
    ensures BreakoutAnalyzer.EvaluateWeekly(weekly, BreakoutAnalyzer.DefaultRule).isBreakout
    ensures !BrokeOut(weekly)
  {
    var window := BreakoutAnalyzer.PriorWindow(weekly, 20);
    assert window == weekly[1..21];
    SumConstant(Volumes(window), 1.0);
    var recent := VolumeWindow(weekly);
    assert recent == weekly[2..21] + [weekly[21]];
    assert Volumes(recent) == Volumes(weekly[2..21]) + [1.2];
    SumConcat(Volumes(weekly[2..21]), [1.2]);
    assert forall i :: 0 <= i < 19 ==> weekly[2..21][i] == weekly[i + 2];
    SumConstant(Volumes(weekly[2..21]), 1.0);
    assert Sum([1.2]) == 1.2;
  }

  /** A series with only `WeeksLookback + 1` weeks is judged by the scanner but is too short for the analyser. */
  lemma ScannerNeedsOneWeekLess(weekly: seq<Bar>)
    requires |weekly| == WeeksLookback + 1
    ensures CheckWeeklyBreakout(weekly).Checked?
    ensures BreakoutAnalyzer.EvaluateWeekly(weekly, BreakoutAnalyzer.DefaultRule).reason.InsufficientData?
  {
  }
}

=== FILE: seqs.dfy ===
/**
 * Sequence operations the scanner borrows from pandas and Python: boolean-mask
 * filtering, `unique()` (first-occurrence order) and the slice `xs[:n]`.
 */
module Seqs {
  import opened Wrappers

  /** No element occurs twice. */
  predicate NoDup<T(==)>(xs: seq<T>) {
    forall i, j :: 0 <= i < j < |xs| ==> xs[i] != xs[j]
  }

  /** Joining two duplicate-free sequences with no element in common gives a duplicate-free sequence. */
  lemma NoDupConcat<T>(a: seq<T>, b: seq<T>)
    requires NoDup(a) && NoDup(b)
    requires forall x :: x in a ==> x !in b
    ensures NoDup(a + b)
  {
    var ab := a + b;
    forall i, j | 0 <= i < j < |ab| ensures ab[i] != ab[j] {
      if j < |a| {
        assert ab[i] == a[i] && ab[j] == a[j];
      } else if i >= |a| {
        assert ab[i] == b[i - |a|] && ab[j] == b[j - |a|];
      } else {
        assert ab[i] == a[i] && ab[j] == b[j - |a|];
        assert a[i] in a;
      }
    }
  }

  /** The elements of `xs` that satisfy `p`, in their original order (a boolean-mask row selection). */
  function Filter<T>(xs: seq<T>, p: T -> bool): (r: seq<T>)
    ensures |r| <= |xs|
  {
    if |xs| == 0 then [] else (if p(xs[0]) then [xs[0]] else []) + Filter(xs[1..], p)
  }

  /** An element is kept exactly when it occurs in the input and satisfies the mask. */
  lemma {:induction false} FilterMembership<T(!new)>(xs: seq<T>, p: T -> bool)
    ensures forall x :: x in Filter(xs, p) <==> x in xs && p(x)
  {
    if |xs| > 0 {
      FilterMembership(xs[1..], p);
      assert xs == [xs[0]] + xs[1..];
    }
  }

  /** Filtering distributes over concatenation, so the relative order of kept elements is preserved. */
  lemma {:induction false} FilterConcat<T>(a: seq<T>, b: seq<T>, p: T -> bool)
    ensures Filter(a + b, p) == Filter(a, p) + Filter(b, p)
  {
    if |a| > 0 {
      assert (a + b)[1..] == a[1..] + b;
      FilterConcat(a[1..], b, p);
    } else {
      assert a + b == b;
    }
  }

  /** Filtering twice by the same mask is filtering once. */
  lemma {:induction false} FilterIdempotent<T>(xs: seq<T>, p: T -> bool)
    ensures Filter(Filter(xs, p), p) == Filter(xs, p)
  {
    if |xs| > 0 {
      var head := if p(xs[0]) then [xs[0]] else [];
      FilterConcat(head, Filter(xs[1..], p), p);
      FilterIdempotent(xs[1..], p);
    }
  }

  /** Filtering one more element at the end adds it exactly when it passes. */
  lemma FilterSnoc<T>(xs: seq<T>, x: T, p: T -> bool)
    ensures Filter(xs + [x], p) == Filter(xs, p) + (if p(x) then [x] else [])
  {
    FilterConcat(xs, [x], p);
    assert [x][1..] == [];
  }

  /** A filter that every element passes keeps the whole sequence. */
  lemma {:induction false} FilterAll<T>(xs: seq<T>, p: T -> bool)
    requires forall i :: 0 <= i < |xs| ==> p(xs[i])
    ensures Filter(xs, p) == xs
  {
    if |xs| > 0 {
      FilterAll(xs[1..], p);
    }
  }

  /** A filter that no element passes keeps nothing. */
  lemma {:induction false} FilterNone<T>(xs: seq<T>, p: T -> bool)
    requires forall i :: 0 <= i < |xs| ==> !p(xs[i])
    ensures Filter(xs, p) == []
  {
    if |xs| > 0 {
      FilterNone(xs[1..], p);
    }
  }

  /** `f` applied to every element, in order (`[f(x) for x in xs]`). */
  function Map<T, U>(xs: seq<T>, f: T -> U): (r: seq<U>)
    ensures |r| == |xs|
    ensures forall i :: 0 <= i < |xs| ==> r[i] == f(xs[i])
  {
    seq(|xs|, i requires 0 <= i < |xs| => f(xs[i]))
  }

  /** Mapping one more element at the end appends its image. */
  lemma MapSnoc<T, U>(xs: seq<T>, x: T, f: T -> U)
    ensures Map(xs + [x], f) == Map(xs, f) + [f(x)]
  {
  }

  /** Mapping a concatenation maps each part. */
  lemma MapConcat<T, U>(xs: seq<T>, ys: seq<T>, f: T -> U)
    ensures Map(xs + ys, f) == Map(xs, f) + Map(ys, f)
  {
  }

  /** Deduplicating one more element at the end adds it exactly when it is new. */
  lemma DedupSnoc<T(!new)>(xs: seq<T>, x: T)
    ensures Dedup(xs + [x]) == if x in Dedup(xs) then Dedup(xs) else Dedup(xs) + [x]
  {
    assert (xs + [x])[..|xs|] == xs;
  }

  /** Some position `i` of `xs` holds `x` and passes `hit`. */
  predicate OccursWhere<T(==)>(xs: seq<T>, x: T, hit: nat -> bool) {
    exists i :: 0 <= i < |xs| && xs[i] == x && hit(i)
  }

  /** An occurrence in `xs` is one before its last position, or that last position. */
  lemma OccursWhereOfLast<T>(xs: seq<T>, x: T, hit: nat -> bool)
    requires |xs| > 0
    ensures var n := |xs| - 1;
            OccursWhere(xs, x, hit) <==> OccursWhere(xs[..n], x, hit) || (xs[n] == x && hit(n))
  {
    var n := |xs| - 1;
    if OccursWhere(xs, x, hit) {
      var i :| 0 <= i < |xs| && xs[i] == x && hit(i);
      if i < n {
        assert xs[..n][i] == x;
      }
    }
    if OccursWhere(xs[..n], x, hit) {
      var i :| 0 <= i < n && xs[..n][i] == x && hit(i);
      assert xs[i] == x;
    }
  }

  /** Position of the first occurrence of `x` in `xs`. */
  function FirstIndex<T(==)>(xs: seq<T>, x: T): (k: nat)
    requires x in xs
    ensures k < |xs| && xs[k] == x
    ensures forall i :: 0 <= i < k ==> xs[i] != x
  {
    if xs[0] == x then 0 else 1 + FirstIndex(xs[1..], x)
  }

  /** pandas `unique()`: each distinct element once, in order of first occurrence. */
  function Dedup<T(==,!new)>(xs: seq<T>): (r: seq<T>)
    ensures NoDup(r)
    ensures forall x :: x in r <==> x in xs
    ensures |r| <= |xs|
  {
    if |xs| == 0 then []
    else
      var d := Dedup(xs[..|xs| - 1]);
      var last := xs[|xs| - 1];
      assert forall x :: x in xs <==> x in xs[..|xs| - 1] || x == last;
      if last in d then d else d + [last]
  }

  lemma FirstIndexInPrefix<T>(xs: seq<T>, n: nat, x: T)
    requires n <= |xs| && x in xs[..n]
    ensures x in xs && FirstIndex(xs, x) == FirstIndex(xs[..n], x)
  {
    var k := FirstIndex(xs[..n], x);
    var k' := FirstIndex(xs, x);
    assert xs[k] == x;
    assert xs[..n][k'] == x;
  }

  /** The order `Dedup` produces is the order in which elements first occur. */
  lemma {:induction false} DedupKeepsFirstOccurrenceOrder<T(!new)>(xs: seq<T>)
    ensures forall i, j :: 0 <= i < j < |Dedup(xs)| ==>
              FirstIndex(xs, Dedup(xs)[i]) < FirstIndex(xs, Dedup(xs)[j])
  {
    if |xs| > 0 {
      var n := |xs| - 1;
      var init := xs[..n];
      var d := Dedup(init);
      var r := Dedup(xs);
      DedupKeepsFirstOccurrenceOrder(init);
      assert r == if xs[n] in d then d else d + [xs[n]];
      forall i, j | 0 <= i < j < |r| ensures FirstIndex(xs, r[i]) < FirstIndex(xs, r[j]) {
        assert r[i] == d[i];
        FirstIndexInPrefix(xs, n, d[i]);
        if j < |d| {
          assert r[j] == d[j];
          FirstIndexInPrefix(xs, n, d[j]);
        } else {
          assert xs[n] !in init;
          assert FirstIndex(xs, r[j]) == n;
        }
      }
    }
  }

  /** Python's slice `xs[:n]`: a non-negative `n` keeps at most `n` elements, a negative one drops `-n` from the end. */
  function SliceTo<T>(xs: seq<T>, n: int): (r: seq<T>)
    ensures r <= xs
    ensures n >= 0 ==> |r| == if n <= |xs| then n else |xs|
    ensures n < 0 ==> |r| == if -n <= |xs| then |xs| + n else 0
  {
    if n >= 0 then (if n <= |xs| then xs[..n] else xs)
    else if -n <= |xs| then xs[..|xs| + n]
    else []
  }

  /** The position of the first element satisfying `p`, if there is one (`next(i for i, x in enumerate(xs) if p(x))`). */
  function FindFirst<T>(xs: seq<T>, p: T -> bool): (r: Option<nat>)
    ensures r.None? <==> forall i :: 0 <= i < |xs| ==> !p(xs[i])
    ensures r.Some? ==> r.value < |xs| && p(xs[r.value]) && forall i :: 0 <= i < r.value ==> !p(xs[i])
  {
    if |xs| == 0 then None
    else if p(xs[0]) then Some(0)
    else
      match FindFirst(xs[1..], p)
      case None => None
      case Some(j) => Some(j + 1)
  }
}

=== FILE: stats.dfy ===
/** Reductions over price and volume columns: pandas `max`, `min`, `sum` and `mean`. */
module Stats {

  /** The largest value: an upper bound of `xs` that `xs` contains. */
  function Max(xs: seq<real>): (m: real)
    requires |xs| > 0
    ensures forall i :: 0 <= i < |xs| ==> xs[i] <= m
    ensures m in xs
  {
    if |xs| == 1 then xs[0]
    else
      var rest := Max(xs[1..]);
      if xs[0] >= rest then xs[0] else rest
  }

  /** The smallest value: a lower bound of `xs` that `xs` contains. */
  function Min(xs: seq<real>): (m: real)
    requires |xs| > 0
    ensures forall i :: 0 <= i < |xs| ==> m <= xs[i]
    ensures m in xs
  {
    if |xs| == 1 then xs[0]
    else
      var rest := Min(xs[1..]);
      if xs[0] <= rest then xs[0] else rest
  }

  function Sum(xs: seq<real>): (s: real) {
    if |xs| == 0 then 0.0 else xs[0] + Sum(xs[1..])
  }

  /** Summing a concatenation sums the parts. */
  lemma {:induction false} SumConcat(a: seq<real>, b: seq<real>)
    ensures Sum(a + b) == Sum(a) + Sum(b)
  {
    if |a| > 0 {
      assert (a + b)[1..] == a[1..] + b;
      SumConcat(a[1..], b);
    } else {
      assert a + b == b;
    }
  }

  /** The sum of `n` copies of `c` is `n * c`. */
  lemma {:induction false} SumConstant(xs: seq<real>, c: real)
    requires forall i :: 0 <= i < |xs| ==> xs[i] == c
    ensures Sum(xs) == |xs| as real * c
  {
    if |xs| > 0 {
      SumConstant(xs[1..], c);
    }
  }

  /** The arithmetic mean. */
  function Mean(xs: seq<real>): (m: real)
    requires |xs| > 0
    ensures m * |xs| as real == Sum(xs)
  {
    Sum(xs) / |xs| as real
  }
}

=== FILE: text.dfy ===
/**
 * The string operations the scanner applies to symbols and column names:
 * Python's `str.strip()`, `str.upper()`, `str.lower()` and `str.capitalize()`,
 * and `str.endswith`.
 */
module Text {

  /** Python's `str.isspace` for one character, by code point. */
  predicate IsSpace(c: char) {
    var n := c as int;
    || (0x09 <= n <= 0x0D)
    || (0x1C <= n <= 0x20)
    || n == 0x85 || n == 0xA0 || n == 0x1680
    || (0x2000 <= n <= 0x200A)
    || n == 0x2028 || n == 0x2029 || n == 0x202F || n == 0x205F || n == 0x3000
  }

  predicate AllSpace(s: string) {
    forall k :: 0 <= k < |s| ==> IsSpace(s[k])
  }

  /** Neither end of `s` is whitespace: `strip()` has nothing to remove. */
  predicate IsStripped(s: string) {
    |s| == 0 || (!IsSpace(s[0]) && !IsSpace(s[|s| - 1]))
  }

  predicate IsLowerLetter(c: char) { 'a' <= c <= 'z' }

  predicate IsUpperLetter(c: char) { 'A' <= c <= 'Z' }

  /** No character of `s` is a lower-case letter. */
  predicate IsUpper(s: string) {
    forall i :: 0 <= i < |s| ==> !IsLowerLetter(s[i])
  }

  /** A symbol as the scanner stores it: stripped and upper-cased. */
  predicate IsNormalized(s: string) {
    IsStripped(s) && IsUpper(s)
  }

  predicate EndsWith(s: string, suffix: string) {
    |suffix| <= |s| && s[|s| - |suffix|..] == suffix
  }

  /** `t` is `s` with its leading whitespace removed: a suffix after only spaces, not starting with one. */
  predicate LeadTrimmed(s: string, t: string) {
    && |t| <= |s| && t == s[|s| - |t|..]
    && AllSpace(s[..|s| - |t|])
    && (|t| == 0 || !IsSpace(t[0]))
  }

  /** `t` is `s` with its trailing whitespace removed: a prefix before only spaces, not ending in one. */
  predicate TailTrimmed(s: string, t: string) {
    && |t| <= |s| && t == s[..|t|]
    && AllSpace(s[|t|..])
    && (|t| == 0 || !IsSpace(t[|t| - 1]))
  }

  /** Removes leading whitespace. */
  function TrimStart(s: string): (r: string)
    ensures LeadTrimmed(s, r)
  {
    if |s| > 0 && IsSpace(s[0]) then
      var t := s[1..];
      var r := TrimStart(t);
      assert r == s[|s| - |r|..] by {
        assert t[|t| - |r|..] == s[|s| - |r|..];
      }
      var cut := s[..|s| - |r|];
      assert AllSpace(cut) by {
        forall k | 0 <= k < |cut| ensures IsSpace(cut[k]) {
          if k > 0 {
            assert cut[k] == t[..|t| - |r|][k - 1];
          }
        }
      }
      r
    else s
  }

  /** Removes trailing whitespace. */
  function TrimEnd(s: string): (r: string)
    ensures TailTrimmed(s, r)
  {
    if |s| > 0 && IsSpace(s[|s| - 1]) then TrimEnd(s[..|s| - 1]) else s
  }

  /** `r` is `s` with some whitespace prefix and some whitespace suffix cut off. */
  predicate TrimmedFrom(s: string, r: string) {
    exists i | 0 <= i <= |s| - |r| ::
      s[i..i + |r|] == r && AllSpace(s[..i]) && AllSpace(s[i + |r|..])
  }

  /** Python's `str.strip()`: the middle of `s` left once whitespace is removed from both ends. */
  function Strip(s: string): (r: string)
    ensures IsStripped(r)
    ensures TrimmedFrom(s, r)
  {
    var t := TrimStart(s);
    var r := TrimEnd(t);
    StripWitness(s, t, r);
    r
  }

  lemma StripWitness(s: string, t: string, r: string)
    requires LeadTrimmed(s, t) && TailTrimmed(t, r)
    ensures IsStripped(r)
    ensures TrimmedFrom(s, r)
  {
    var i := |s| - |t|;
    assert |r| > 0 ==> r[0] == t[0];
    assert s[i..i + |r|] == r;
    assert s[i + |r|..] == t[|r|..];
  }

  lemma StripKeepsStripped(s: string)
    ensures IsStripped(s) ==> Strip(s) == s
  {
  }

  function UpperChar(c: char): (u: char) {
    if IsLowerLetter(c) then (c as int - 32) as char else c
  }

  function LowerChar(c: char): (l: char) {
    if IsUpperLetter(c) then (c as int + 32) as char else c
  }

  /** Python's `str.upper()` on the ASCII letters. */
  function Upper(s: string): (r: string)
    ensures |r| == |s|
    ensures IsUpper(r)
    ensures forall i :: 0 <= i < |s| ==> LowerChar(r[i]) == LowerChar(s[i])
  {
    seq(|s|, i requires 0 <= i < |s| => UpperChar(s[i]))
  }

  /** Upper-casing leaves whitespace where it was, and leaves an upper-case string alone. */
  lemma UpperKeepsSpacesAndUpper(s: string)
    ensures forall i :: 0 <= i < |s| ==> (IsSpace(Upper(s)[i]) <==> IsSpace(s[i]))
    ensures IsUpper(s) ==> Upper(s) == s
  {
  }

  /** Python's `str.lower()` on the ASCII letters. */
  function Lower(s: string): (r: string)
    ensures |r| == |s|
    ensures forall i :: 0 <= i < |s| ==> !IsUpperLetter(r[i])
    ensures forall i :: 0 <= i < |s| ==> UpperChar(r[i]) == UpperChar(s[i])
  {
    seq(|s|, i requires 0 <= i < |s| => LowerChar(s[i]))
  }

  /** Python's `str.capitalize()`: first character upper-case, the rest lower-case. */
  function Capitalize(s: string): (r: string)
    ensures |r| == |s|
    ensures |s| > 0 ==> !IsLowerLetter(r[0])
    ensures forall i :: 1 <= i < |s| ==> !IsUpperLetter(r[i])
    ensures Lower(r) == Lower(s)
  {
    if |s| == 0 then ""
    else
      var r := [UpperChar(s[0])] + Lower(s[1..]);
      assert Lower(r) == Lower(s) by {
        forall i | 0 <= i < |s| ensures Lower(r)[i] == Lower(s)[i] {
          if i > 0 {
            assert r[i] == Lower(s[1..])[i - 1];
          }
        }
      }
      r
  }

  /** A word that already starts with a capital and continues in lower case is its own `capitalize`. */
  lemma CapitalizeKeepsCapitalized(s: string)
    requires |s| > 0 && !IsLowerLetter(s[0])
    requires forall i :: 1 <= i < |s| ==> !IsUpperLetter(s[i])
    ensures Capitalize(s) == s
  {
    assert Capitalize(s) == [UpperChar(s[0])] + Lower(s[1..]);
    forall i | 0 <= i < |s| - 1 ensures Lower(s[1..])[i] == s[1 + i] {
      assert !IsUpperLetter(s[1 + i]);
    }
  }

  /** `capitalize` does not care how the input was cased. */
  lemma CapitalizeIgnoresCase(s: string)
    ensures Capitalize(Upper(s)) == Capitalize(s)
    ensures Capitalize(Lower(s)) == Capitalize(s)
  {
    if |s| > 0 {
      var t := s[1..];
      assert Upper(s)[1..] == Upper(t);
      assert Lower(s)[1..] == Lower(t);
      forall i | 0 <= i < |t|
        ensures Lower(Upper(t))[i] == Lower(t)[i] && Lower(Lower(t))[i] == Lower(t)[i]
      {
        CaseOfCaseChar(t[i]);
      }
      assert Lower(Upper(t)) == Lower(t);
      assert Lower(Lower(t)) == Lower(t);
      CaseOfCaseChar(s[0]);
    }
  }

  /** Re-casing a character that was already re-cased only depends on the last casing. */
  lemma CaseOfCaseChar(c: char)
    ensures LowerChar(UpperChar(c)) == LowerChar(c)
    ensures LowerChar(LowerChar(c)) == LowerChar(c)
    ensures UpperChar(UpperChar(c)) == UpperChar(c)
    ensures UpperChar(LowerChar(c)) == UpperChar(c)
  {
  }

  /** `s.strip().upper()`, the normalisation every symbol goes through. */
  function Normalize(s: string): (r: string)
    ensures IsNormalized(r)
    ensures Lower(r) == Lower(Strip(s))
    ensures IsNormalized(s) ==> r == s
    ensures |r| <= |s|
  {
    var t := Strip(s);
    UpperKeepsStripped(t);
    StripKeepsStripped(s);
    UpperKeepsSpacesAndUpper(t);
    Upper(t)
  }

  lemma UpperKeepsStripped(s: string)
    requires IsStripped(s)
    ensures IsStripped(Upper(s))
  {
    var u := Upper(s);
    UpperKeepsSpacesAndUpper(s);
    if |s| > 0 {
      assert IsSpace(u[0]) <==> IsSpace(s[0]);
      assert IsSpace(u[|s| - 1]) <==> IsSpace(s[|s| - 1]);
    }
  }

  lemma NormalizeIdempotent(s: string)
    ensures Normalize(Normalize(s)) == Normalize(s)
  {
  }
}

=== FILE: wrappers.dfy ===
/** Failure-compatible result types shared by the rest of the model. */
module Wrappers {

  /** A value that may be absent: Python's `None` on one side, a value on the other. */
  datatype Option<+T> = None | Some(value: T)

  /** The outcome of an operation that may raise: a value, or the error it raised. */
  datatype Result<+T, +E> = Success(value: T) | Failure(error: E)
}
